=== FILE: README.md ===
# Card ledger reconciliation

A Dafny model of the record handlers of a personal-finance REST service
and of the card documents they keep up to date. A user owns cards; each card
has a starting amount `start`, a running `usedTotal` and a displayed
`balance`. Each income or expense record names one card. Creating, deleting
and editing a record moves that card's counters. Two read-only queries
aggregate a user's records: per-group sums and a filtered list.

The model is functional. A `Store` holds the cards as a
`map<CardId, Card>` and the records collection as a `seq<Record>`. Each
handler is a pure function from the store and a request to either a new
store or an `Error`: `BadRequest` (status 400), or `UnsupportedMode`,
`CardNotFound` or `RecordNotFound` (replies the service sends with status
200). The handlers are split in two layers:

- Validation: `CheckCreate`, `CheckEdit` and `DeleteTarget` check the
  request fields. They use a model of JavaScript's `parseInt` and of
  `toLowerCase` (module `JsText`).
- Store steps: `Insert`, `Delete` and `Amend` look up the card or the
  record, write it, and move the counters as the handlers' code computes
  them.

`Create` and `Edit` chain the two layers.

Module `RouteFacts` states, as if-and-only-if lemmas, which ledger invariants
the handlers keep as written and which they break:

- usedTotal equals the signed sum of the card's records;
- balance equals start plus usedTotal;
- card numbers and record ids are unique.

Module `Reconcile` is the corrected ledger. It applies one signed delta per
card, keeps balance at start plus usedTotal, and on an edit takes back what
was charged. It is proved to keep both invariants. Module `Findings` states
what both versions give on small concrete stores, so each discrepancy
shows up as a specific input.

The new record's ObjectId is a parameter (`newId`), which must not be
taken yet. The month and year of a record's date are given values
(`Stamp`).

Create looks the card up before it writes anything: line 52 returns
before line 54 creates the record, so creating a record on a missing card
writes nothing (`Insert`). Edit never checks the new card: it saves the
revised record and skips the counters of a card it cannot find (`Amend`).
Only the corrected `AmendFixed` refuses such an edit.

Inside one edit request the order is fixed. A `.then` callback runs only
after the code that registered it has finished, so lines 305-311 revise the
record before any card callback runs. When the same-card branch reads
`parseInt(record.value)` at lines 290 and 297, it reads the new value, so
the old value is never taken back (`ReplaceCounters`).

## Model

| member | source | states |
|---|---|---|
| JsText.LowerCaseHasNoUpper | app/routes/record.js:57 | lower-casing keeps the length and leaves no upper-case letter, so the stored mode is lower case |
| JsText.LowerCaseFixesLower | app/routes/record.js:198 | text with no upper-case letter is its own lower-case form, so `record.mode.toLowerCase()` on a stored mode is the stored mode (also lines 263, 274, 285) |
| JsText.LowerCaseIdempotent | app/routes/record.js:198 | lower-casing a stored (already lower-cased) mode again changes nothing, so delete and edit see the mode create stored |
| JsText.TrimStartShape | app/routes/record.js:39 | parseInt's leading-space skip drops exactly a run of white space and leaves a suffix not starting with one |
| JsText.DigitPrefixShape | app/routes/record.js:39 | parseInt reads the longest prefix of digits: a prefix, all digits, not followed by another digit |
| JsText.ParseIntShowInt | app/routes/record.js:39 | parseInt reads back the decimal text of any integer, whatever non-digit text follows it |
| JsText.ParseIntOfNumber | app/routes/record.js:67 | `parseInt(n)` of an integer-valued number is `n`, so `parseInt(result.usedTotal)` is the stored counter |
| JsText.ParseIntSkipsSpace | app/routes/record.js:39 | leading white space of any kind does not change what parseInt reads |
| JsText.ParseIntRejects | app/routes/record.js:39 | "", "abc" and a bare "0x" are NaN, so the request is refused |
| JsText.ParseIntStopsAtNonDigit | app/routes/record.js:39 | "12abc" reads as 12 and is accepted |
| JsText.ParseIntSpaceAndSign | app/routes/record.js:39 | " -42" reads as -42 |
| JsText.ParseIntHex | app/routes/record.js:39 | with no radix, "0x1A" reads as 26 |
| CardModel.NewCard | app/models/card.js:11-50 | a draft becomes a card exactly when every required field is present; usedTotal defaults to 0, image to "", balance stays absent when not given |
| CardModel.InsertCard | app/models/card.js:42-46 | saving a card fails on a missing required field, or on a taken `_id` or `number`, and otherwise adds just that card and keeps numbers unique |
| CardModel.CountersKeepNumbersUnique | app/models/card.js:42-46 | a step that changes only counters cannot break the unique index on `number` |
| RecordModel.ParseMode | app/routes/record.js:42-45 | a mode is accepted exactly when its lower-case form is "expense" or "income", and the accepted mode's stored name is that lower-case form |
| RecordModel.ModeNameRoundTrip | app/routes/record.js:57 | the stored mode name has no upper-case letter and parses back to the same mode |
| RecordModel.ParseModeCapitalised | app/routes/record.js:42-45 | "Expense" is accepted as an expense |
| RecordModel.ParseModeUpperCase | app/routes/record.js:42-45 | "INCOME" is accepted as an income |
| RecordModel.ParseModeRejectsBalance | app/routes/record.js:42-45 | "Balance", the mode named in the handlers' documentation, is refused |
| RecordModel.EffectIsLinear | app/routes/record.js:290 | helper used by the ledger lemmas: the signed effect of a difference is the difference of the signed effects, and only a zero value has no effect (the arithmetic of line 290 itself is stated by RecordRoutes.ReplaceCounters) |
| RecordModel.Find | app/routes/record.js:252-257 | `findOne` by id finds nothing exactly when no record has the id, and otherwise the first record with it |
| RecordModel.FindUnique | app/routes/record.js:191 | with unique ids, looking up a record's id finds that very record |
| RecordModel.SumRemoveAt | app/routes/record.js:191 | removing a record takes exactly its own weight out of every card, user and group sum |
| RecordModel.SumUpdate | app/routes/record.js:305-311 | rewriting a record swaps its old weight for its new one in every sum |
| RecordRoutes.CheckCreate | app/routes/record.js:34-45 | 400 exactly when user, mode, category or card is empty or `parseInt(value)` is NaN; otherwise the unsupported-mode reply exactly when the mode is not expense or income; on success the entry carries the lower-case mode, the parsed value and "" for a missing note or picture |
| RecordRoutes.CheckEdit | app/routes/record.js:244-250 | 400 exactly when id, datetime, category or card is empty or the value is NaN; on success the revision carries the parsed value and "" for a missing note or picture |
| RecordRoutes.DeleteTarget | app/routes/record.js:184-188 | the id is the body's id whenever the body has one, even "", and the query's id only when the body has none |
| RecordRoutes.DeleteEmptyBodyId | app/routes/record.js:184-188 | a body id sent as "" is answered with 400 whatever the query string holds |
| RecordRoutes.DeleteByQueryId | app/routes/record.js:184-188 | with no id in the body, deleting by the query's id gives exactly what deleting by the same id in the body gives |
| RecordRoutes.CheckCreateRoundTrip | app/routes/record.js:34-63 | an entry with user, category and card given, sent as its mode name and the decimal text of its value, validates back to that same entry |
| RecordRoutes.CheckCreateNormalises | app/routes/record.js:34-63 | re-sending what create made of an accepted body is accepted and gives the same entry again |
| RecordRoutes.CheckEditRoundTrip | app/routes/record.js:244-250 | a revision with id, datetime, category and card given, sent with the decimal text of its value, validates back to that same revision |
| RecordRoutes.CheckEditNormalises | app/routes/record.js:244-250 | re-sending what edit made of an accepted body is accepted and gives the same revision again |
| RecordRoutes.Insert | app/routes/record.js:47-76 | a missing card is refused with nothing written; otherwise the record is appended, only that card's counters change, usedTotal moves by the signed value and balance grows by the whole new usedTotal; with no balance the card's save fails and the card is unchanged |
| RecordRoutes.ChargeOnCreate | app/routes/record.js:66-72 | the counter update of create on its own: usedTotal plus the signed value, balance plus the new usedTotal |
| RecordRoutes.Create | app/routes/record.js:24-81 | validation errors and a missing card change nothing, and a valid request on an existing card succeeds; on success exactly one record is appended, holding the requested fields |
| RecordRoutes.RefundOnDelete | app/routes/record.js:193-204 | delete takes the signed value off both usedTotal and balance of the record's card; a missing card or absent balance leaves the cards unchanged |
| RecordRoutes.Delete | app/routes/record.js:183-214 | 400 exactly when no id is given, not found exactly when no record has it, and no other error; otherwise that record is removed and only its card's counters move back by its signed value |
| RecordRoutes.MoveCounters | app/routes/record.js:259-280 | on a move the old card gets the new value back and the new card is charged the new value; balances and other cards untouched |
| RecordRoutes.ReplaceCounters | app/routes/record.js:282-301 | on the same card the callback reads `record.value` after line 308 has set it to the new value, so a non-zero usedTotal gets the new value added and taken off and does not move, and a usedTotal of exactly 0 becomes the signed new value, whatever the old value; balance untouched |
| RecordRoutes.Amend | app/routes/record.js:252-311 | a missing record is refused; otherwise the record is revised in place, no balance changes, and only the old and new cards' usedTotals move: on a move the old card gets the new signed value back and the new card is charged it; on the same card a usedTotal of 0 becomes the signed new value and any other usedTotal stays |
| RecordRoutes.Edit | app/routes/record.js:235-318 | 400 exactly for a malformed body, not found exactly for a missing record, and no other error; on success the record at the same position holds the requested fields, with id, user and mode kept; no balance changes, no card but the old and the new one changes, a move credits the old card and charges the new one the new signed value, and on the same card only a usedTotal of 0 moves, to the signed new value |
| RecordQueries.Summary | app/routes/record.js:89-121 | 400 exactly for an empty user; otherwise one group per distinct (category, mode, month, year) key of the user's records, each sum the total value of the user's records with that key, and all sums together the total value of the user's records |
| RecordQueries.SelectRows | app/routes/record.js:146-165 | the rows are the projections of exactly the user's records in the given mode and category, in collection order |
| RecordQueries.ByCategory | app/routes/record.js:131-172 | 400 exactly when mode or category is empty, the unsupported-mode reply exactly for a mode other than expense or income; every row comes from a record of the user whose stored mode is the lower-cased request mode and whose category is the requested one, and every such record gives a row |
| RouteFacts.InsertedIsFound | app/routes/record.js:54-64 | the record create appends is the one a later lookup of its id finds |
| RouteFacts.ChargeThenRefund | app/routes/record.js:198-204 | charging a card for a record and refunding it restores every usedTotal, but balance ends at the old balance plus the usedTotal the card had before the charge (create added the new usedTotal, delete takes back only the record's value); the cards come back exactly when there is no balance or usedTotal was 0 |
| RouteFacts.CreateThenDelete | app/routes/record.js:198-204 | deleting a record right after creating it restores the records and every usedTotal; the cards come back exactly when the card had no balance or a usedTotal of 0 |
| RouteFacts.CreateUsedLedger | app/routes/record.js:66-74 | create keeps usedTotal equal to the signed record sum on every card exactly when the card has a balance or the value is 0 |
| RouteFacts.DeleteUsedLedger | app/routes/record.js:198-206 | delete keeps that invariant exactly when the record's card is missing, has a balance, or the value is 0 |
| RouteFacts.EditSameCardUsedLedger | app/routes/record.js:282-301 | a same-card edit keeps that invariant exactly when the card is missing, or its usedTotal is not 0 and the value is unchanged, or its usedTotal is 0 and the old value was 0 |
| RouteFacts.EditMoveUsedLedger | app/routes/record.js:259-280 | a move keeps that invariant exactly when the old card is missing or the value is unchanged |
| RouteFacts.EditMoveConserves | app/routes/record.js:259-280 | a move lowers one card's usedTotal by what it raises the other's, so their sum is kept |
| RouteFacts.CreateBalanceLedger | app/routes/record.js:72 | after create, balance is still start plus usedTotal exactly when the card's usedTotal was 0 |
| RouteFacts.DeleteBalanceLedger | app/routes/record.js:198-204 | delete keeps balance equal to start plus usedTotal on every card |
| RouteFacts.EditBalanceLedger | app/routes/record.js:259-301 | after an edit, a card's balance is still start plus usedTotal exactly when its usedTotal did not move |
| RouteFacts.CreateKeepsValid | app/models/card.js:42-46 | create keeps card numbers and record ids unique |
| RouteFacts.DeleteKeepsValid | app/models/card.js:42-46 | delete keeps card numbers and record ids unique |
| RouteFacts.EditKeepsValid | app/models/card.js:42-46 | edit keeps card numbers and record ids unique |
| Reconcile.ApplyDelta | app/routes/record.js:66-72 | corrected counter update: usedTotal moves by the signed delta, balance becomes start plus usedTotal, nothing else changes |
| Reconcile.InsertFixed | app/routes/record.js:66-72 | corrected create: refused for a missing card; otherwise usedTotal moves by the signed value and balance equals start plus usedTotal |
| Reconcile.DeleteFixed | app/routes/record.js:198-204 | corrected delete: the same errors as delete and no other; the signed value comes off the card and balance equals start plus usedTotal |
| Reconcile.AmendFixed | app/routes/record.js:259-301 | corrected edit: refused exactly for a missing record or a missing new card, and for nothing else; the old signed value comes off the old card and the new one goes on the new card; on one card that is the delta of the new minus the old value whatever usedTotal is; both balances follow |
| Reconcile.InsertFixedKeepsLedger | app/routes/record.js:66-72 | corrected create keeps both ledger invariants on every card |
| Reconcile.DeleteFixedKeepsLedger | app/routes/record.js:198-204 | corrected delete keeps both ledger invariants on every card |
| Reconcile.AmendFixedKeepsLedger | app/routes/record.js:259-301 | corrected edit keeps both ledger invariants on every card |
| Reconcile.InsertThenDeleteFixed | app/routes/record.js:198-204 | with the corrections, delete right after create restores the store exactly when the card's balance agreed |
| Reconcile.AmendFixedMoveConserves | app/routes/record.js:259-280 | a corrected move with an unchanged value takes the value off one card and puts it on the other, keeping their sum |
| Findings.Text90000 | app/routes/record.js:16-22 | the documented amount "90000" reads as 90000 |
| Findings.CreateRequestValidates | app/routes/record.js:34-45 | a create request for an expense validates to the entry with the parsed amount |
| Findings.EditRequestValidates | app/routes/record.js:244-250 | an edit request validates to the revision with the parsed amount |
| Findings.ScenarioCreate | app/routes/record.js:66-72 | an expense of 90000 on a fresh card gives usedTotal -90000 and balance 910000, as written and corrected |
| Findings.ScenarioEdit | app/routes/record.js:282-301 | editing it to 50000 on the same card leaves usedTotal at -90000 and balance at 910000 as written; corrected, usedTotal -50000 and balance 950000 |
| Findings.ScenarioDelete | app/routes/record.js:198-204 | deleting it then refunds 50000 to both counters as written, giving usedTotal -40000 and balance 960000; corrected, the fresh 0 and 1000000 |
| Findings.CreateEditDelete | app/routes/record.js:47-76 | the three steps together: with no records left the card ends at usedTotal -40000 and balance 960000 as written; corrected, the store is the fresh one again |
| Findings.SecondExpenseDrift | app/routes/record.js:72 | a second expense of 10000 lowers balance from 910000 to 810000 instead of 900000, breaking a ledger that held |
| Findings.MoveCreditsNewValue | app/routes/record.js:264-266 | moving an expense of 50 to another card with value 30 leaves the old card at -20 instead of 0 |
| Findings.MoveBreaksLedger | app/routes/record.js:264-266 | that move breaks the usedTotal ledger, which held before it |
| Findings.MoveFixedTakesBackOldValue | app/routes/record.js:259-280 | corrected, the old card goes back to 0 and balance 1000000, the new one to -30 and 999970 |
| Findings.ZeroUsedTotalEdit | app/routes/record.js:286-288 | on a card at usedTotal 0 (an expense and an income of 50), lowering the expense to 30 sets usedTotal to -30 instead of 20, breaking the ledger; corrected it is 20 |

## Left out

- Record ids, card ids and user ids are plain strings. The ObjectId conversion of `mongoose.Types.ObjectId`, and its throw on a malformed id, are not modelled.
- `global.isEmpty` is not part of this model. A field counts as empty when it is the empty string, and a missing field arrives as "". The one place where a missing field and "" behave differently, the body id of delete, keeps them apart (`DeleteRequest.bodyId` is optional).
- `toLowerCase` lowers ASCII letters only. That is exact for comparing against "expense" and "income" and for the names stored.
- JavaScript numbers are unbounded integers here. Double precision, fractional values, and the exponent notation `String(n)` uses from 10^21 up are not modelled. `parseInt` of a stored number is taken as that number (JsText.ParseIntOfNumber).
- Dates: the conversion `new Date(parseInt(datetime)*1000)` and the `$month`/`$year` extraction are replaced by a given `Stamp(month, year)`. The `$dateToString` `time` field of the category query's rows is left out.
- app/models/record.js is not part of this model. The record save is assumed to succeed and to store `parseInt(value)`; likewise `parseInt(record.value)` after line 308 is taken as `parseInt(value)`, which a Number cast of exponent text such as "1e3" would change. A cast failure of the unawaited `save()` is not modelled.
- Asynchrony: each handler is one sequential step. Saves are neither ordered nor atomic in the code, and those interleavings are not modelled. The one order the code does fix is modelled: within an edit request the record is revised before any card callback reads it. A card lookup inside an unawaited callback that finds nothing throws unobserved; the model skips that card.
- A card without a balance: `balance += x` makes NaN, and the card's save is taken to fail its Number cast, so neither counter of that card changes (Insert, Delete). Edits never touch balance, so their saves go through.
- Delete of a missing record throws a TypeError inside the promise chain. The code catches it and replies with an error; the model replies `RecordNotFound`.
- The category query converts a missing `id` with `ObjectId(undefined)`, which mints a fresh id that matches nothing. The model compares the given user string as it is.
- Status codes and message texts are folded into the `Error` constructors.
- Authentication (passport JWT on every route), app/middlewares.js, the authentication and index routes and the note schema are plumbing or I/O, and are not part of this model.
- The card schema's `type` field is called `kind`, because `type` is a Dafny keyword. `_id` generation for cards is the `id` parameter of `CardModel.InsertCard`.
- The `console.log` calls in the same-card edit branch have no effect on state.
- Base64 pictures are opaque strings.

## Findings

| source | as written | input that shows it | evidently intended | confidence | as-written member | corrected member |
|---|---|---|---|---|---|---|
| app/routes/record.js:72 | create adds the whole new usedTotal to balance | a card at usedTotal -90000 and balance 910000 (start 1000000) gets an expense of 10000: balance becomes 810000 | balance moves by the signed value only, to 900000, staying start plus usedTotal | not executed | Findings.SecondExpenseDrift | Reconcile.InsertFixed |
| app/routes/record.js:259-301 | edits change usedTotal and never balance | an expense of 50 on card "a" moved to card "b" (start 1000000, usedTotal 0) with value 30: "b" goes to usedTotal -30 but its balance stays 1000000 | balance follows usedTotal, to 999970 | not executed | Findings.MoveCreditsNewValue | Reconcile.AmendFixed |
| app/routes/record.js:264-266 | a move credits the old card with the new value, not the value it was charged | an expense of 50 on card "a" moved to "b" with value 30: "a" ends at usedTotal -20 | "a" gets its 50 back and ends at 0 | not executed | Findings.MoveCreditsNewValue | Reconcile.AmendFixed |
| app/routes/record.js:290-297 | a same-card edit on a card whose usedTotal is not 0 reads `record.value` after line 308 has set it to the new value, so usedTotal never moves | an expense of 90000 on a fresh card (usedTotal -90000, balance 910000) edited to 50000: usedTotal stays -90000 | the old value is taken back and the new one charged: -90000 + 90000 - 50000 = -50000 | not executed | Findings.ScenarioEdit | Reconcile.AmendFixed |
| app/routes/record.js:286-288 | when the card's usedTotal is exactly 0 a same-card edit sets it to the signed new value; as in the non-zero branch, the old value is not taken back | a card with an expense of 50 and an income of 50 (usedTotal 0); the expense is lowered to 30: usedTotal becomes -30 | the old value is taken back whatever usedTotal is: 0 + 50 - 30 = 20 | not executed | Findings.ZeroUsedTotalEdit | Reconcile.AmendFixed |

=== FILE: basics.dfy ===
/** Optional values and error-carrying results shared by every module. */
module Basics {

  /** A value that may be absent (a missing request field, a lookup that found nothing). */
  datatype Option<T> = None | Some(value: T) {

    /** The value, or `default` when absent: JavaScript's `x || default` on a string field. */
    function GetOr(default: T): T {
      if Some? then value else default
    }
  }

  /** The outcome of a handler: the new state, or the error sent back to the client. */
  datatype Result<T, E> = Ok(value: T) | Err(error: E)
}

=== FILE: card.dfy ===
/**
 * The card document of app/models/card.js: identity and metadata, the
 * starting balance, and the two counters that record mutations adjust.
 */
module CardModel {
  import opened Basics

  /** Ids are the hexadecimal text of MongoDB ObjectIds. */
  type CardId = string
  type UserId = string

  /**
   * A stored card. `kind` is the schema's `type` field. `balance` is an
   * optional number with no default, so it may be absent.
   */
  datatype Card = Card(
    user: UserId,
    image: string,
    kind: string,
    start: int,
    usedTotal: int,
    balance: Option<int>,
    name: string,
    exp: string,
    number: string,
    cvv: int)

  /** The fields a client hands to `new Card(...)`; every one of them may be left out. */
  datatype CardDraft = CardDraft(
    user: Option<UserId>,
    image: Option<string>,
    kind: Option<string>,
    start: Option<int>,
    usedTotal: Option<int>,
    balance: Option<int>,
    name: Option<string>,
    exp: Option<string>,
    number: Option<string>,
    cvv: Option<int>)

  /** Why the database refuses a new card: a required field is missing, or an `_id`/`number` is taken. */
  datatype CardError = MissingField | DuplicateKey

  /** Mongoose's `required` check on a String path: present and not "". */
  predicate Given(s: Option<string>) {
    s.Some? && |s.value| > 0
  }

  predicate HasRequired(d: CardDraft) {
    d.user.Some? && Given(d.kind) && d.start.Some? && Given(d.name) && Given(d.exp)
    && Given(d.number) && d.cvv.Some?
  }

  /**
   * The document Mongoose builds from a draft, after the schema's defaults
   * (`image` "", `usedTotal` 0) and its `required` validators.
   */
  function NewCard(d: CardDraft): (r: Option<Card>)
    ensures r.Some? <==> HasRequired(d)
    ensures r.Some? ==> r.value.start == d.start.value && r.value.number == d.number.value
    ensures r.Some? ==> r.value.balance == d.balance
    ensures r.Some? && d.usedTotal.None? ==> r.value.usedTotal == 0
    ensures r.Some? && d.image.None? ==> r.value.image == ""
  {
    if !HasRequired(d) then None
    else Some(Card(d.user.value, d.image.GetOr(""), d.kind.value, d.start.value,
                   d.usedTotal.GetOr(0), d.balance, d.name.value, d.exp.value,
                   d.number.value, d.cvv.value))
  }

  /** The unique index on `number`: no two stored cards share one. */
  ghost predicate UniqueNumbers(cards: map<CardId, Card>) {
    forall a, b :: a in cards && b in cards && cards[a].number == cards[b].number ==> a == b
  }

  predicate NumberTaken(cards: map<CardId, Card>, number: string) {
    exists k :: k in cards && cards[k].number == number
  }

  /**
   * Saving a new card under `id`: the schema validation runs first, then the
   * unique indexes on `_id` and `number` are enforced.
   */
  function InsertCard(cards: map<CardId, Card>, id: CardId, d: CardDraft): (r: Result<map<CardId, Card>, CardError>)
    ensures r == Err(MissingField) <==> !HasRequired(d)
    ensures r == Err(DuplicateKey) <==> HasRequired(d) && (id in cards || NumberTaken(cards, d.number.value))
    ensures r.Ok? ==> r.value.Keys == cards.Keys + {id} && id !in cards
    ensures r.Ok? ==> r.value[id] == NewCard(d).value
    ensures r.Ok? ==> forall k :: k in cards ==> r.value[k] == cards[k]
    ensures r.Ok? && UniqueNumbers(cards) ==> UniqueNumbers(r.value)
  {
    match NewCard(d)
    case None => Err(MissingField)
    case Some(c) =>
      if id in cards || NumberTaken(cards, c.number) then Err(DuplicateKey)
      else Ok(cards[id := c])
  }

  /** `c2` differs from `c1` at most in the two reconciliation counters. */
  predicate SameIdentity(c1: Card, c2: Card) {
    && c2.user == c1.user && c2.image == c1.image && c2.kind == c1.kind && c2.start == c1.start
    && c2.name == c1.name && c2.exp == c1.exp && c2.number == c1.number && c2.cvv == c1.cvv
  }

  /** A store step that keeps every card, adds none, and changes nothing but counters. */
  predicate OnlyCountersChange(before: map<CardId, Card>, after: map<CardId, Card>) {
    && after.Keys == before.Keys
    && forall k :: k in before ==> SameIdentity(before[k], after[k])
  }

  /** Counter updates never break the unique index on `number`. */
  lemma CountersKeepNumbersUnique(before: map<CardId, Card>, after: map<CardId, Card>)
    requires OnlyCountersChange(before, after)
    requires UniqueNumbers(before)
    ensures UniqueNumbers(after)
  {
    forall a, b | a in after && b in after && after[a].number == after[b].number
      ensures a == b
    {
      assert SameIdentity(before[a], after[a]) && SameIdentity(before[b], after[b]);
      assert before[a].number == after[a].number;
      assert before[b].number == after[b].number;
    }
  }
}

=== FILE: findings.dfy ===
/**
 * The store steps of app/routes/record.js as written, next to the
 * corrected ones of Reconcile, evaluated on small concrete stores. Each lemma names the
 * validated request, the store before and the store after; CreateRequestValidates,
 * EditRequestValidates and Text90000 connect them to the texts a client sends.
 */
module Findings {
  import opened Basics
  import opened JsText
  import opened CardModel
  import opened RecordModel
  import opened RecordRoutes
  import opened RouteFacts
  import opened Reconcile

  // ---------------------------------------------------------------------------
  // Amounts as the client sends them

  /** The amount of the create example in the handler's documentation reads as 90000. */
  lemma Text90000()
    ensures ParseInt("90000") == Some(90000)
  {
    assert ShowNat(9) == "9";
    assert ShowNat(90) == "90";
    assert ShowNat(900) == "900";
    assert ShowNat(9000) == "9000";
    assert ShowNat(90000) == "90000";
    ParseIntOfNumber(90000);
  }

  // ---------------------------------------------------------------------------
  // The stores

  const July2017 := Stamp(7, 2017)

  /** A card of user "u" that started with 1000000. */
  function Wallet(number: string, used: int, balance: int): Card {
    Card("u", "", "visa", 1000000, used, Some(balance), "Wallet", "12/20", number, 123)
  }

  /** A stored record of user "u" in category "Food". */
  function Rec(id: RecordId, m: Mode, card: CardId, v: int): Record {
    Record(id, "u", July2017, m, "Food", card, v, "", "")
  }

  /** The validated form of an expense of `v` on `card`. */
  function Spend(card: CardId, v: int): Entry {
    Entry("u", July2017, Expense, "Food", card, v, "", "")
  }

  /** The validated form of an edit that puts record `id` on `card` with value `v`. */
  function Rework(id: RecordId, card: CardId, v: int): Revision {
    Revision(id, July2017, "Food", card, v, "", "")
  }

  /** The create request a client sends for an expense. */
  function SpendOn(card: CardId, v: string): CreateRequest {
    CreateRequest("u", July2017, "Expense", "Food", card, v, None, None)
  }

  /** The edit body a client sends to put record `id` on `card` with amount `v`. */
  function EditBody(id: RecordId, card: CardId, v: string): EditRequest {
    EditRequest(id, "1500879600", July2017, "Food", card, v, None, None)
  }

  /** A create request validates to the entry the lemmas below use. */
  lemma CreateRequestValidates(amount: string, n: int)
    requires ParseInt(amount) == Some(n)
    ensures CheckCreate(SpendOn("c", amount)) == Ok(Spend("c", n))
  {
    assert ToLowerCase("Expense") == "expense";
  }

  /** An edit request validates to the revision the lemmas below use. */
  lemma EditRequestValidates(amount: string, n: int)
    requires ParseInt(amount) == Some(n)
    ensures CheckEdit(EditBody("r", "c", amount)) == Ok(Rework("r", "c", n))
  {
  }

  // ---------------------------------------------------------------------------
  // Create, edit, delete of one expense on a fresh card

  /** A card that started with 1000000 and holds no records. */
  function FreshCard(): Store {
    Store(map["c" := Wallet("4111", 0, 1000000)], [])
  }

  lemma ScenarioCreate()
    ensures Insert(FreshCard(), Spend("c", 90000), "r")
            == Ok(Store(map["c" := Wallet("4111", -90000, 910000)], [Rec("r", Expense, "c", 90000)]))
    ensures InsertFixed(FreshCard(), Spend("c", 90000), "r")
            == Ok(Store(map["c" := Wallet("4111", -90000, 910000)], [Rec("r", Expense, "c", 90000)]))
  {
    var st := FreshCard();
    assert Absent(st.records, "r");
    assert st.records + [Posted(Spend("c", 90000), "r")] == [Rec("r", Expense, "c", 90000)];
    assert st.cards["c" := Wallet("4111", -90000, 910000)] == map["c" := Wallet("4111", -90000, 910000)];
  }

  /**
   * As written, the edit leaves the card alone: lines 290 and 297 read the already
   * revised value, so usedTotal stays at -90000 and balance at 910000.
   * Corrected, usedTotal goes to -50000 and balance follows it.
   */
  lemma ScenarioEdit()
    ensures Amend(Store(map["c" := Wallet("4111", -90000, 910000)], [Rec("r", Expense, "c", 90000)]), Rework("r", "c", 50000))
            == Ok(Store(map["c" := Wallet("4111", -90000, 910000)], [Rec("r", Expense, "c", 50000)]))
    ensures AmendFixed(Store(map["c" := Wallet("4111", -90000, 910000)], [Rec("r", Expense, "c", 90000)]), Rework("r", "c", 50000))
            == Ok(Store(map["c" := Wallet("4111", -50000, 950000)], [Rec("r", Expense, "c", 50000)]))
  {
    var rs := [Rec("r", Expense, "c", 90000)];
    assert Find(rs, "r") == Some(0);
    assert rs[0 := Rec("r", Expense, "c", 50000)] == [Rec("r", Expense, "c", 50000)];
    var cards := map["c" := Wallet("4111", -90000, 910000)];
    assert cards["c" := Wallet("4111", -90000, 910000)] == cards;
    assert cards["c" := Wallet("4111", 0, 1000000)]["c" := Wallet("4111", -50000, 950000)]
           == map["c" := Wallet("4111", -50000, 950000)];
  }

  /** Deleting the edited record refunds its 50000 to both counters as written. */
  lemma ScenarioDelete()
    ensures Delete(Store(map["c" := Wallet("4111", -90000, 910000)], [Rec("r", Expense, "c", 50000)]), DeleteRequest(Some("r"), ""))
            == Ok(Store(map["c" := Wallet("4111", -40000, 960000)], []))
    ensures DeleteFixed(Store(map["c" := Wallet("4111", -50000, 950000)], [Rec("r", Expense, "c", 50000)]), DeleteRequest(Some("r"), ""))
            == Ok(Store(map["c" := Wallet("4111", 0, 1000000)], []))
  {
    var rs := [Rec("r", Expense, "c", 50000)];
    assert Find(rs, "r") == Some(0);
    assert RemoveAt(rs, 0) == [];
    assert map["c" := Wallet("4111", -90000, 910000)]["c" := Wallet("4111", -40000, 960000)] == map["c" := Wallet("4111", -40000, 960000)];
    assert map["c" := Wallet("4111", -50000, 950000)]["c" := Wallet("4111", 0, 1000000)] == map["c" := Wallet("4111", 0, 1000000)];
  }

  /**
   * The whole sequence: an expense of 90000, edited to 50000, then deleted. As
   * written the card with no records left ends at usedTotal -40000 and
   * balance 960000; corrected it is back to the fresh card, balance 1000000.
   */
  lemma CreateEditDelete()
    ensures
      var r1 := Insert(FreshCard(), Spend("c", 90000), "r");
      && r1.Ok?
      && var r2 := Amend(r1.value, Rework("r", "c", 50000));
      && r2.Ok?
      && Delete(r2.value, DeleteRequest(Some("r"), "")) == Ok(Store(map["c" := Wallet("4111", -40000, 960000)], []))
    ensures
      var r1 := InsertFixed(FreshCard(), Spend("c", 90000), "r");
      && r1.Ok?
      && var r2 := AmendFixed(r1.value, Rework("r", "c", 50000));
      && r2.Ok?
      && DeleteFixed(r2.value, DeleteRequest(Some("r"), "")) == Ok(FreshCard())
  {
    ScenarioCreate();
    ScenarioEdit();
    ScenarioDelete();
  }

  // ---------------------------------------------------------------------------
  // Create adds the whole usedTotal to balance

  /** A second expense of 10000: balance falls by the new usedTotal, 100000, instead of by 10000. */
  lemma SecondExpenseDrift()
    ensures
      var st := Store(map["c" := Wallet("4111", -90000, 910000)], [Rec("r", Expense, "c", 90000)]);
      && Insert(st, Spend("c", 10000), "s")
         == Ok(Store(map["c" := Wallet("4111", -100000, 810000)], st.records + [Rec("s", Expense, "c", 10000)]))
      && InsertFixed(st, Spend("c", 10000), "s")
         == Ok(Store(map["c" := Wallet("4111", -100000, 900000)], st.records + [Rec("s", Expense, "c", 10000)]))
      && BalanceAgrees(st.cards["c"]) && !BalanceAgrees(Insert(st, Spend("c", 10000), "s").value.cards["c"])
  {
    var cards := map["c" := Wallet("4111", -90000, 910000)];
    assert cards["c" := Wallet("4111", -100000, 810000)] == map["c" := Wallet("4111", -100000, 810000)];
    assert cards["c" := Wallet("4111", -100000, 900000)] == map["c" := Wallet("4111", -100000, 900000)];
  }

  // ---------------------------------------------------------------------------
  // A move credits the old card the new value

  /** The card "a" holds one expense of 50; "b" holds nothing. */
  function TwoCards(): Store {
    Store(map["a" := Wallet("4111", -50, 999950), "b" := Wallet("5500", 0, 1000000)], [Rec("r", Expense, "a", 50)])
  }

  /** Moving the expense of 50 from "a" to "b" and lowering it to 30 leaves "a" at -20 instead of 0. */
  lemma MoveCreditsNewValue()
    ensures Amend(TwoCards(), Rework("r", "b", 30))
            == Ok(Store(map["a" := Wallet("4111", -20, 999950), "b" := Wallet("5500", -30, 1000000)],
                        [Rec("r", Expense, "b", 30)]))
  {
    var st := TwoCards();
    assert Find(st.records, "r") == Some(0);
    assert st.records[0 := Rec("r", Expense, "b", 30)] == [Rec("r", Expense, "b", 30)];
    assert st.cards["a" := Wallet("4111", -20, 999950)]["b" := Wallet("5500", -30, 1000000)]
           == map["a" := Wallet("4111", -20, 999950), "b" := Wallet("5500", -30, 1000000)];
  }

  /** That move breaks the usedTotal ledger of "a", which held before. */
  lemma MoveBreaksLedger()
    ensures UsedLedger(TwoCards()) && !UsedLedger(Amend(TwoCards(), Rework("r", "b", 30)).value)
  {
    var st := TwoCards();
    MoveCreditsNewValue();
    var st1 := Amend(st, Rework("r", "b", 30)).value;
    assert st1.records == [Rec("r", Expense, "b", 30)];
    assert Sum(st.records, OnCard("a")) == -50;
    assert Sum(st.records, OnCard("b")) == 0;
    assert Sum(st1.records, OnCard("a")) == 0;
    assert !UsedAgrees(st1, "a");
  }

  /** The corrected move empties "a" and charges "b" 30, both balances following. */
  lemma MoveFixedTakesBackOldValue()
    ensures AmendFixed(TwoCards(), Rework("r", "b", 30))
            == Ok(Store(map["a" := Wallet("4111", 0, 1000000), "b" := Wallet("5500", -30, 999970)],
                        [Rec("r", Expense, "b", 30)]))
  {
    var st := TwoCards();
    assert Find(st.records, "r") == Some(0);
    assert st.records[0 := Rec("r", Expense, "b", 30)] == [Rec("r", Expense, "b", 30)];
    assert st.cards["a" := Wallet("4111", 0, 1000000)]["b" := Wallet("5500", -30, 999970)]
           == map["a" := Wallet("4111", 0, 1000000), "b" := Wallet("5500", -30, 999970)];
  }

  // ---------------------------------------------------------------------------
  // The usedTotal === 0 branch of a same-card edit

  /**
   * An expense of 50 and an income of 50 leave the card at usedTotal 0;
   * lowering the expense to 30 should bring it to 20, but the zero branch
   * forgets the old 50 and sets -30.
   */
  lemma ZeroUsedTotalEdit()
    ensures
      var st := Store(map["c" := Wallet("4111", 0, 1000000)],
                      [Rec("r", Expense, "c", 50), Rec("s", Income, "c", 50)]);
      && Amend(st, Rework("r", "c", 30))
         == Ok(Store(map["c" := Wallet("4111", -30, 1000000)],
                     [Rec("r", Expense, "c", 30), Rec("s", Income, "c", 50)]))
      && AmendFixed(st, Rework("r", "c", 30))
         == Ok(Store(map["c" := Wallet("4111", 20, 1000020)],
                     [Rec("r", Expense, "c", 30), Rec("s", Income, "c", 50)]))
      && UsedLedger(st) && !UsedLedger(Amend(st, Rework("r", "c", 30)).value)
  {
    var cards := map["c" := Wallet("4111", 0, 1000000)];
    assert cards["c" := Wallet("4111", -30, 1000000)] == map["c" := Wallet("4111", -30, 1000000)];
    assert cards["c" := Wallet("4111", 50, 1000050)]["c" := Wallet("4111", 20, 1000020)]
           == map["c" := Wallet("4111", 20, 1000020)];
    var rs := [Rec("r", Expense, "c", 50), Rec("s", Income, "c", 50)];
    var st := Store(cards, rs);
    assert Find(rs, "r") == Some(0);
    assert rs[0 := Rec("r", Expense, "c", 30)] == [Rec("r", Expense, "c", 30), Rec("s", Income, "c", 50)];
    var st1 := Amend(st, Rework("r", "c", 30)).value;
    assert Sum(st.records, OnCard("c")) == 0;
    assert Sum(st1.records, OnCard("c")) == 20;
    assert !UsedAgrees(st1, "c");
  }
}

=== FILE: js_text.dfy ===
/**
 * The pieces of JavaScript text handling that the record handlers rely on:
 * `global.isEmpty` on a field, `String.prototype.toLowerCase` and the global
 * `parseInt` called without a radix.
 */
module JsText {
  import opened Basics

  /** A request field that is missing or blank; a missing field arrives as "". */
  predicate IsEmpty(s: string) {
    |s| == 0
  }

  // ---------------------------------------------------------------------------
  // toLowerCase

  predicate IsUpper(c: char) {
    'A' <= c <= 'Z'
  }

  function LowerChar(c: char): char {
    if IsUpper(c) then (c as int + 32) as char else c
  }

  /** Lower-cases the ASCII letters of `s` and leaves every other character alone. */
  function ToLowerCase(s: string): string
    decreases |s|
  {
    if |s| == 0 then "" else [LowerChar(s[0])] + ToLowerCase(s[1..])
  }

  predicate NoUpper(s: string) {
    forall i :: 0 <= i < |s| ==> !IsUpper(s[i])
  }

  /** The lower-cased text has the same length and no upper-case letter left. */
  lemma {:induction false} LowerCaseHasNoUpper(s: string)
    ensures |ToLowerCase(s)| == |s|
    ensures NoUpper(ToLowerCase(s))
    decreases |s|
  {
    if |s| > 0 {
      LowerCaseHasNoUpper(s[1..]);
      var r := ToLowerCase(s);
      assert r == [LowerChar(s[0])] + ToLowerCase(s[1..]);
      forall i | 0 <= i < |r| ensures !IsUpper(r[i]) {
        if i > 0 {
          assert r[i] == ToLowerCase(s[1..])[i - 1];
        }
      }
    }
  }

  /** Text without upper-case letters is its own lower-case form. */
  lemma {:induction false} LowerCaseFixesLower(s: string)
    requires NoUpper(s)
    ensures ToLowerCase(s) == s
    decreases |s|
  {
    if |s| > 0 {
      assert NoUpper(s[1..]) by {
        forall i | 0 <= i < |s[1..]| ensures !IsUpper(s[1..][i]) {
          assert s[1..][i] == s[i + 1];
        }
      }
      LowerCaseFixesLower(s[1..]);
      assert s == [s[0]] + s[1..];
    }
  }

  /** Lower-casing twice is lower-casing once. */
  lemma LowerCaseIdempotent(s: string)
    ensures ToLowerCase(ToLowerCase(s)) == ToLowerCase(s)
  {
    LowerCaseHasNoUpper(s);
    LowerCaseFixesLower(ToLowerCase(s));
  }

  // ---------------------------------------------------------------------------
  // parseInt

  /**
   * StrWhiteSpaceChar of ECMA-262: TAB, VT, FF, SP, NBSP, ZWNBSP, the other
   * space separators of category Zs, and the line terminators LF, CR, LS, PS.
   */
  predicate IsSpace(c: char) {
    var n := c as int;
    n == 0x09 || n == 0x0A || n == 0x0B || n == 0x0C || n == 0x0D || n == 0x20
    || n == 0xA0 || n == 0x1680 || (0x2000 <= n <= 0x200A) || n == 0x2028
    || n == 0x2029 || n == 0x202F || n == 0x205F || n == 0x3000 || n == 0xFEFF
  }

  /** Drops the leading white space of `s`, and nothing else. */
  function TrimStart(s: string): string
    decreases |s|
  {
    if |s| > 0 && IsSpace(s[0]) then TrimStart(s[1..]) else s
  }

  /** What TrimStart leaves is a suffix that starts with no space, and everything it drops is space. */
  lemma {:induction false} TrimStartShape(s: string)
    ensures var r := TrimStart(s);
      && |r| <= |s| && r == s[|s| - |r|..]
      && (r == [] || !IsSpace(r[0]))
      && (forall i :: 0 <= i < |s| - |r| ==> IsSpace(s[i]))
    decreases |s|
  {
    if |s| > 0 && IsSpace(s[0]) {
      TrimStartShape(s[1..]);
      var r := TrimStart(s);
      assert s[1..][|s[1..]| - |r|..] == s[|s| - |r|..];
      forall i | 0 <= i < |s| - |r| ensures IsSpace(s[i]) {
        if i > 0 {
          assert s[i] == s[1..][i - 1];
        }
      }
    }
  }

  /** The value of `c` as a digit, `a`-`z` standing for 10-35 in either case; 36 for any other character. */
  function DigitOf(c: char): nat {
    if '0' <= c <= '9' then c as int - '0' as int
    else if 'a' <= c <= 'z' then c as int - 'a' as int + 10
    else if 'A' <= c <= 'Z' then c as int - 'A' as int + 10
    else 36
  }

  predicate IsDigit(c: char, radix: nat) {
    DigitOf(c) < radix
  }

  /** The longest prefix of `s` made of digits of `radix`. */
  function DigitPrefix(s: string, radix: nat): string
    decreases |s|
  {
    if |s| > 0 && IsDigit(s[0], radix) then [s[0]] + DigitPrefix(s[1..], radix) else []
  }

  /** DigitPrefix is the longest prefix of digits: a prefix, all digits, and not followed by one. */
  lemma {:induction false} DigitPrefixShape(s: string, radix: nat)
    ensures var r := DigitPrefix(s, radix);
      && |r| <= |s| && r == s[..|r|]
      && (forall i :: 0 <= i < |r| ==> IsDigit(r[i], radix))
      && (|r| == |s| || !IsDigit(s[|r|], radix))
    decreases |s|
  {
    if |s| > 0 && IsDigit(s[0], radix) {
      DigitPrefixShape(s[1..], radix);
      var t := DigitPrefix(s[1..], radix);
      var r := DigitPrefix(s, radix);
      assert r == [s[0]] + t;
      assert s[..|r|] == [s[0]] + s[1..][..|t|];
      forall i | 0 <= i < |r| ensures IsDigit(r[i], radix) {
        if i > 0 {
          assert r[i] == t[i - 1];
        }
      }
      if |r| < |s| {
        assert s[|r|] == s[1..][|t|];
      }
    }
  }

  /** The number a digit string denotes in `radix`, most significant digit first. */
  function DigitsValue(ds: string, radix: nat): nat
    decreases |ds|
  {
    if |ds| == 0 then 0 else DigitsValue(ds[..|ds| - 1], radix) * radix + DigitOf(ds[|ds| - 1])
  }

  /** The digits at the start of `u` in `radix`, or `None` when `u` does not start with one. */
  function ReadDigits(u: string, radix: nat): Option<nat> {
    var ds := DigitPrefix(u, radix);
    if |ds| == 0 then None else Some(DigitsValue(ds, radix))
  }

  /** Whether `u` starts with the `0x`/`0X` prefix of a hexadecimal number. */
  predicate HexPrefixed(u: string) {
    |u| >= 2 && u[0] == '0' && (u[1] == 'x' || u[1] == 'X')
  }

  /** An unsigned number: hexadecimal after a `0x`/`0X` prefix, decimal otherwise. */
  function ReadMagnitude(u: string): Option<nat> {
    if HexPrefixed(u) then ReadDigits(u[2..], 16) else ReadDigits(u, 10)
  }

  /** Whether `t` starts with a sign character. */
  predicate Signed(t: string) {
    |t| > 0 && (t[0] == '-' || t[0] == '+')
  }

  /** An optionally signed number. */
  function ReadSigned(t: string): Option<int> {
    var m := ReadMagnitude(if Signed(t) then t[1..] else t);
    if m.None? then None
    else if Signed(t) && t[0] == '-' then Some(0 - m.value)
    else Some(m.value as int)
  }

  /**
   * The global `parseInt(s)` with no radix: skip leading white space, take an
   * optional sign, switch to radix 16 after a `0x`/`0X` prefix, and read the
   * longest run of digits. `None` stands for NaN (no digit at all).
   */
  function ParseInt(s: string): Option<int> {
    ReadSigned(TrimStart(s))
  }

  // ---------------------------------------------------------------------------
  // Number to decimal text, the inverse that parseInt undoes

  function DecimalChar(d: nat): char
    requires d < 10
  {
    ('0' as int + d) as char
  }

  /** Decimal text of a natural number, without leading zeros. */
  function ShowNat(n: nat): string
    decreases n
  {
    if n < 10 then [DecimalChar(n)] else ShowNat(n / 10) + [DecimalChar(n % 10)]
  }

  /** Decimal text of an integer, as JavaScript's ToString gives it for integers below 10^21. */
  function ShowInt(n: int): string {
    if n < 0 then "-" + ShowNat(-n) else ShowNat(n)
  }

  /** The decimal text of `n` is a non-empty run of decimal digits that denotes `n` and starts with `0` only for zero. */
  lemma {:induction false} ShowNatDigits(n: nat)
    ensures |ShowNat(n)| > 0
    ensures forall i :: 0 <= i < |ShowNat(n)| ==> IsDigit(ShowNat(n)[i], 10)
    ensures DigitsValue(ShowNat(n), 10) == n
    ensures n > 0 ==> ShowNat(n)[0] != '0'
    decreases n
  {
    if n >= 10 {
      ShowNatDigits(n / 10);
      var s := ShowNat(n / 10);
      var c := DecimalChar(n % 10);
      assert ShowNat(n) == s + [c];
      assert (s + [c])[..|s|] == s;
      assert DigitsValue(s + [c], 10) == DigitsValue(s, 10) * 10 + DigitOf(c);
      forall i | 0 <= i < |s + [c]| ensures IsDigit((s + [c])[i], 10) {
        if i < |s| {
          assert (s + [c])[i] == s[i];
        }
      }
    }
  }

  /** Digits followed by a character that is no digit: the digit prefix is exactly those digits. */
  lemma {:induction false} DigitPrefixOfDigits(ds: string, t: string, radix: nat)
    requires forall i :: 0 <= i < |ds| ==> IsDigit(ds[i], radix)
    requires t == [] || !IsDigit(t[0], radix)
    ensures DigitPrefix(ds + t, radix) == ds
    decreases |ds|
  {
    if |ds| > 0 {
      assert (ds + t)[1..] == ds[1..] + t;
      DigitPrefixOfDigits(ds[1..], t, radix);
      assert ds == [ds[0]] + ds[1..];
    } else {
      assert ds + t == t;
    }
  }

  /** `t` cannot continue the decimal text of `n`: it does not start with a digit, nor with `x`/`X` after a lone `0`. */
  predicate EndsNumber(n: int, t: string) {
    t == [] || (!IsDigit(t[0], 10) && (n != 0 || (t[0] != 'x' && t[0] != 'X')))
  }

  /** An unsigned decimal text followed by a non-digit reads back as its number. */
  lemma ReadMagnitudeShowNat(m: nat, t: string)
    requires EndsNumber(m, t)
    ensures ReadMagnitude(ShowNat(m) + t) == Some(m)
  {
    ShowNatDigits(m);
    var digits := ShowNat(m);
    var u := digits + t;
    assert u[0] == digits[0];
    if m == 0 {
      assert digits == [DecimalChar(0)];
      assert |u| >= 2 ==> u[1] == t[0];
    }
    assert !(|u| >= 2 && u[0] == '0' && (u[1] == 'x' || u[1] == 'X'));
    DigitPrefixOfDigits(digits, t, 10);
  }

  lemma TrimStartAtNonSpace(s: string)
    requires |s| > 0 && !IsSpace(s[0])
    ensures TrimStart(s) == s
  {
  }

  lemma ReadSignedNegative(m: nat, t: string)
    requires EndsNumber(m, t)
    ensures ReadSigned("-" + (ShowNat(m) + t)) == Some(-(m as int))
  {
    var s := "-" + (ShowNat(m) + t);
    assert s[0] == '-';
    assert s[1..] == ShowNat(m) + t;
    ReadMagnitudeShowNat(m, t);
  }

  lemma ReadSignedNonNegative(m: nat, t: string)
    requires EndsNumber(m, t)
    ensures ReadSigned(ShowNat(m) + t) == Some(m)
  {
    ShowNatDigits(m);
    var s := ShowNat(m) + t;
    assert s[0] == ShowNat(m)[0];
    assert IsDigit(s[0], 10);
    ReadMagnitudeShowNat(m, t);
  }

  /** parseInt reads back the decimal text of any integer, and ignores whatever follows it. */
  lemma ParseIntShowInt(n: int, t: string)
    requires EndsNumber(n, t)
    ensures ParseInt(ShowInt(n) + t) == Some(n)
  {
    var s := ShowInt(n) + t;
    if n < 0 {
      var m: nat := -n;
      assert EndsNumber(m, t);
      assert s == "-" + (ShowNat(m) + t);
      TrimStartAtNonSpace(s);
      ReadSignedNegative(m, t);
    } else {
      var m: nat := n;
      ShowNatDigits(m);
      assert s == ShowNat(m) + t;
      assert s[0] == ShowNat(m)[0];
      TrimStartAtNonSpace(s);
      ReadSignedNonNegative(m, t);
    }
  }

  /**
   * `parseInt(n)` on an integer-valued JavaScript number reads its decimal
   * text back and gives `n` itself; the handlers' `parseInt(card.usedTotal)`
   * and `parseInt(record.value)` are therefore the stored numbers.
   */
  lemma ParseIntOfNumber(n: int)
    ensures ParseInt(ShowInt(n)) == Some(n)
  {
    ParseIntShowInt(n, []);
    assert ShowInt(n) + [] == ShowInt(n);
  }

  /** Leading white space of any kind does not change what parseInt reads. */
  lemma {:induction false} ParseIntSkipsSpace(w: string, s: string)
    requires forall i :: 0 <= i < |w| ==> IsSpace(w[i])
    ensures ParseInt(w + s) == ParseInt(s)
    decreases |w|
  {
    TrimStartSkipsSpace(w, s);
  }

  lemma {:induction false} TrimStartSkipsSpace(w: string, s: string)
    requires forall i :: 0 <= i < |w| ==> IsSpace(w[i])
    ensures TrimStart(w + s) == TrimStart(s)
    decreases |w|
  {
    if |w| > 0 {
      assert (w + s)[0] == w[0];
      assert (w + s)[1..] == w[1..] + s;
      TrimStartSkipsSpace(w[1..], s);
    } else {
      assert w + s == s;
    }
  }

  /** Values the handlers reject as NaN. */
  lemma ParseIntRejects()
    ensures ParseInt("") == None
    ensures ParseInt("abc") == None
    ensures ParseInt("0x") == None
  {
    assert TrimStart("abc") == "abc";
    assert DigitPrefix("abc", 10) == [];
    assert TrimStart("0x") == "0x";
    assert "0x"[2..] == [];
  }

  /** parseInt stops at the first character that is not a digit. */
  lemma ParseIntStopsAtNonDigit()
    ensures ParseInt("12abc") == Some(12)
  {
    assert ShowInt(12) == "12";
    ParseIntShowInt(12, "abc");
    assert "12abc" == ShowInt(12) + "abc";
  }

  /** parseInt skips leading blanks and honours a minus sign. */
  lemma ParseIntSpaceAndSign()
    ensures ParseInt(" -42") == Some(-42)
  {
    assert TrimStart(" -42") == "-42";
    assert "-42"[1..] == "42";
    assert DigitPrefix("42", 10) == "42";
    assert "42"[..1] == "4";
    assert DigitsValue("42", 10) == 42;
    assert ReadMagnitude("42") == Some(42);
    assert ReadSigned("-42") == Some(-42);
  }

  /** parseInt without a radix reads hexadecimal after `0x`. */
  lemma ParseIntHex()
    ensures ParseInt("0x1A") == Some(26)
  {
    assert TrimStart("0x1A") == "0x1A";
    assert "0x1A"[2..] == "1A";
    assert DigitPrefix("A", 16) == "A";
    assert DigitPrefix("1A", 16) == "1A";
    assert "1A"[..1] == "1";
    assert DigitsValue("1", 16) == 1;
  }
}

=== FILE: reconcile.dfy ===
/**
 * The ledger the handlers of app/routes/record.js evidently mean to keep,
 * with the arithmetic corrected: every change to a card is one signed delta
 * on usedTotal, balance is start plus usedTotal afterwards, an edit takes
 * back exactly what the record was charged before it charges the new value,
 * and an edit refuses a card that does not exist, as create does. Validation
 * (CheckCreate, CheckEdit, DeleteTarget), record writes and error replies are
 * those of RecordRoutes.
 */
module Reconcile {
  import opened Basics
  import opened JsText
  import opened CardModel
  import opened RecordModel
  import opened RecordRoutes
  import opened RouteFacts

  /** Both ledger invariants on every stored card. */
  ghost predicate Ledger(st: Store) {
    forall k :: k in st.cards ==> UsedAgrees(st, k) && BalanceAgrees(st.cards[k])
  }

  /** Moves one card's usedTotal by `delta` and sets its balance to start plus the new usedTotal. */
  function ApplyDelta(cards: map<CardId, Card>, id: CardId, delta: int): (r: map<CardId, Card>)
    requires id in cards
    ensures OnlyCountersChange(cards, r)
    ensures forall k :: k in cards && k != id ==> r[k] == cards[k]
    ensures r[id].usedTotal == cards[id].usedTotal + delta
    ensures BalanceAgrees(r[id])
  {
    var used := cards[id].usedTotal + delta;
    SetCounters(cards, id, used, Some(cards[id].start + used))
  }

  /** Like ApplyDelta, on a card that may be missing (then nothing happens). */
  function ApplyIfPresent(cards: map<CardId, Card>, id: CardId, delta: int): (r: map<CardId, Card>)
    ensures OnlyCountersChange(cards, r)
    ensures forall k :: k in cards && k != id ==> r[k] == cards[k]
    ensures id !in cards ==> r == cards
    ensures id in cards ==> r[id].usedTotal == cards[id].usedTotal + delta && BalanceAgrees(r[id])
  {
    if id in cards then ApplyDelta(cards, id, delta) else cards
  }

  /** The store step of `POST /record/create`, corrected: the card's usedTotal moves by the record's signed value. */
  function InsertFixed(st: Store, e: Entry, newId: RecordId): (r: Result<Store, Error>)
    requires Absent(st.records, newId)
    ensures r.Err? <==> e.card !in st.cards
    ensures r.Err? ==> r.error == CardNotFound
    ensures r.Ok? ==> r.value.records == st.records + [Posted(e, newId)]
    ensures r.Ok? ==> OnlyCountersChange(st.cards, r.value.cards)
    ensures r.Ok? ==> forall k :: k in st.cards && k != e.card ==> r.value.cards[k] == st.cards[k]
    ensures r.Ok? ==>
      && r.value.cards[e.card].usedTotal == st.cards[e.card].usedTotal + Effect(e.mode, e.value)
      && BalanceAgrees(r.value.cards[e.card])
  {
    if e.card !in st.cards then Err(CardNotFound)
    else Ok(Store(ApplyDelta(st.cards, e.card, Effect(e.mode, e.value)), st.records + [Posted(e, newId)]))
  }

  /** `DELETE /record/delete`, corrected: the record's signed value is taken off its card. */
  function DeleteFixed(st: Store, q: DeleteRequest): (r: Result<Store, Error>)
    ensures r == Err(BadRequest) <==> IsEmpty(DeleteTarget(q))
    ensures r == Err(RecordNotFound) <==> !IsEmpty(DeleteTarget(q)) && Absent(st.records, DeleteTarget(q))
    ensures r.Err? ==> r.error == BadRequest || r.error == RecordNotFound
    ensures r.Ok? ==> Find(st.records, DeleteTarget(q)).Some?
    ensures r.Ok? ==> r.value.records == RemoveAt(st.records, Find(st.records, DeleteTarget(q)).value)
    ensures r.Ok? ==> OnlyCountersChange(st.cards, r.value.cards)
    ensures r.Ok? ==>
      var rec := st.records[Find(st.records, DeleteTarget(q)).value];
      && (forall k :: k in st.cards && k != rec.card ==> r.value.cards[k] == st.cards[k])
      && (rec.card in st.cards ==>
            && r.value.cards[rec.card].usedTotal == st.cards[rec.card].usedTotal - Effect(rec.mode, rec.value)
            && BalanceAgrees(r.value.cards[rec.card]))
  {
    var id := DeleteTarget(q);
    if IsEmpty(id) then Err(BadRequest)
    else match Find(st.records, id)
      case None => Err(RecordNotFound)
      case Some(i) =>
        var rec := st.records[i];
        Ok(Store(ApplyIfPresent(st.cards, rec.card, -Effect(rec.mode, rec.value)), RemoveAt(st.records, i)))
  }

  /**
   * The store step of `PATCH /record/edit`, corrected: the old signed value
   * comes off the old card and the new one goes onto the new card, which
   * must exist. On the same card that is the single delta
   * `Effect(mode, new - old)`, whatever its usedTotal.
   */
  function AmendFixed(st: Store, rv: Revision): (r: Result<Store, Error>)
    ensures r == Err(RecordNotFound) <==> Absent(st.records, rv.id)
    ensures r == Err(CardNotFound) <==> !Absent(st.records, rv.id) && rv.card !in st.cards
    ensures r.Err? ==> r.error == RecordNotFound || r.error == CardNotFound
    ensures r.Ok? ==> Find(st.records, rv.id).Some? && rv.card in st.cards
    ensures r.Ok? ==>
      var i := Find(st.records, rv.id).value;
      r.value.records == st.records[i := Revise(st.records[i], rv)]
    ensures r.Ok? ==> OnlyCountersChange(st.cards, r.value.cards)
    ensures r.Ok? ==>
      var rec := st.records[Find(st.records, rv.id).value];
      && (forall k :: k in st.cards && k != rec.card && k != rv.card ==> r.value.cards[k] == st.cards[k])
      && BalanceAgrees(r.value.cards[rv.card])
      && (rec.card == rv.card ==>
            r.value.cards[rv.card].usedTotal == st.cards[rv.card].usedTotal + Effect(rec.mode, rv.value - rec.value))
      && (rec.card != rv.card && rec.card in st.cards ==>
            && r.value.cards[rec.card].usedTotal == st.cards[rec.card].usedTotal - Effect(rec.mode, rec.value)
            && BalanceAgrees(r.value.cards[rec.card]))
      && (rec.card != rv.card ==>
            r.value.cards[rv.card].usedTotal == st.cards[rv.card].usedTotal + Effect(rec.mode, rv.value))
  {
    match Find(st.records, rv.id)
    case None => Err(RecordNotFound)
    case Some(i) =>
      if rv.card !in st.cards then Err(CardNotFound)
      else
        var rec := st.records[i];
        var taken := ApplyIfPresent(st.cards, rec.card, -Effect(rec.mode, rec.value));
        EffectIsLinear(rec.mode, rv.value, rec.value);
        Ok(Store(ApplyDelta(taken, rv.card, Effect(rec.mode, rv.value)), st.records[i := Revise(rec, rv)]))
  }

  // ---------------------------------------------------------------------------
  // The ledger is kept

  /** A card whose usedTotal moved by exactly the change in its record sum still agrees. */
  lemma KeptOnCard(st: Store, st1: Store, k: CardId, delta: int)
    requires k in st.cards && k in st1.cards && UsedAgrees(st, k)
    requires Sum(st1.records, OnCard(k)) == Sum(st.records, OnCard(k)) + delta
    requires st1.cards[k].usedTotal == st.cards[k].usedTotal + delta
    ensures UsedAgrees(st1, k)
  {
  }

  lemma InsertFixedKeepsLedger(st: Store, e: Entry, newId: RecordId)
    requires Absent(st.records, newId)
    requires Ledger(st) && InsertFixed(st, e, newId).Ok?
    ensures Ledger(InsertFixed(st, e, newId).value)
  {
    var st1 := InsertFixed(st, e, newId).value;
    var rec := Posted(e, newId);
    forall k | k in st1.cards ensures UsedAgrees(st1, k) && BalanceAgrees(st1.cards[k]) {
      SumAppend(st.records, rec, OnCard(k));
      if k == e.card {
        KeptOnCard(st, st1, k, Effect(rec.mode, rec.value));
      } else {
        KeptOnCard(st, st1, k, 0);
      }
    }
  }

  lemma DeleteFixedKeepsLedger(st: Store, q: DeleteRequest)
    requires Ledger(st) && DeleteFixed(st, q).Ok?
    ensures Ledger(DeleteFixed(st, q).value)
  {
    var st1 := DeleteFixed(st, q).value;
    var i := Find(st.records, DeleteTarget(q)).value;
    var rec := st.records[i];
    forall k | k in st1.cards ensures UsedAgrees(st1, k) && BalanceAgrees(st1.cards[k]) {
      SumRemoveAt(st.records, i, OnCard(k));
      if k == rec.card {
        KeptOnCard(st, st1, k, -Effect(rec.mode, rec.value));
      } else {
        KeptOnCard(st, st1, k, 0);
      }
    }
  }

  lemma AmendFixedKeepsLedger(st: Store, rv: Revision)
    requires Ledger(st) && AmendFixed(st, rv).Ok?
    ensures Ledger(AmendFixed(st, rv).value)
  {
    var st1 := AmendFixed(st, rv).value;
    var i := Find(st.records, rv.id).value;
    var rec := st.records[i];
    var rec1 := Revise(rec, rv);
    assert st1.records == st.records[i := rec1];
    forall k | k in st1.cards ensures UsedAgrees(st1, k) && BalanceAgrees(st1.cards[k]) {
      SumUpdate(st.records, i, rec1, OnCard(k));
      if k == rec.card && k == rv.card {
        EffectIsLinear(rec.mode, rv.value, rec.value);
        KeptOnCard(st, st1, k, Effect(rec.mode, rv.value - rec.value));
      } else if k == rec.card {
        KeptOnCard(st, st1, k, -Effect(rec.mode, rec.value));
      } else if k == rv.card {
        KeptOnCard(st, st1, k, Effect(rec.mode, rv.value));
      } else {
        KeptOnCard(st, st1, k, 0);
      }
    }
  }

  // ---------------------------------------------------------------------------
  // Reversal and moves

  /** Deleting a record right after creating it gives back the store exactly, on a card whose balance agreed. */
  lemma InsertThenDeleteFixed(st: Store, e: Entry, newId: RecordId)
    requires Absent(st.records, newId) && !IsEmpty(newId)
    requires InsertFixed(st, e, newId).Ok?
    ensures
      var r := DeleteFixed(InsertFixed(st, e, newId).value, DeleteRequest(Some(newId), ""));
      r.Ok? && (r.value == st <==> BalanceAgrees(st.cards[e.card]))
  {
    var st1 := InsertFixed(st, e, newId).value;
    var n := |st.records|;
    var rs := st1.records;
    assert rs[n] == Posted(e, newId);
    assert forall j :: 0 <= j < n ==> rs[j] == st.records[j];
    assert Find(rs, newId) == Some(n);
    assert DeleteTarget(DeleteRequest(Some(newId), "")) == newId;
    var r := DeleteFixed(st1, DeleteRequest(Some(newId), ""));
    assert rs[..n] == st.records;
    assert RemoveAt(rs, n) == st.records;
    var c := st.cards[e.card];
    var c2 := r.value.cards[e.card];
    assert SameIdentity(c, c2) by {
      assert SameIdentity(c, st1.cards[e.card]);
      assert SameIdentity(st1.cards[e.card], c2);
    }
    assert c2.usedTotal == c.usedTotal;
    if BalanceAgrees(c) {
      SameCountersSameCard(c, c2);
      assert r.value.cards == st.cards;
    } else {
      assert c2 != c;
    }
  }

  /**
   * Moving a record to another card without changing its value takes its
   * signed value off one card and puts it on the other, so the two
   * usedTotals keep their sum.
   */
  lemma AmendFixedMoveConserves(st: Store, rv: Revision)
    requires AmendFixed(st, rv).Ok?
    requires
      var rec := st.records[Find(st.records, rv.id).value];
      rec.card != rv.card && rec.card in st.cards && rv.value == rec.value
    ensures
      var rec := st.records[Find(st.records, rv.id).value];
      var after := AmendFixed(st, rv).value.cards;
      && after[rec.card].usedTotal == st.cards[rec.card].usedTotal - Effect(rec.mode, rec.value)
      && after[rv.card].usedTotal == st.cards[rv.card].usedTotal + Effect(rec.mode, rec.value)
      && after[rec.card].usedTotal + after[rv.card].usedTotal == st.cards[rec.card].usedTotal + st.cards[rv.card].usedTotal
  {
  }
}

=== FILE: record.dfy ===
/**
 * The record documents that app/routes/record.js writes: one income or
 * expense against a card, kept in collection order.
 */
module RecordModel {
  import opened Basics
  import opened JsText
  import opened CardModel

  type RecordId = string

  /** The two supported modes; a record stores the lower-case name of its mode. */
  datatype Mode = Expense | Income

  function ModeName(m: Mode): string {
    match m
    case Expense => "expense"
    case Income => "income"
  }

  /**
   * The mode check of the create handler and the category query: a mode is
   * accepted exactly when its lower-case form is "expense" or "income".
   */
  function ParseMode(s: string): (r: Option<Mode>)
    ensures r.Some? <==> ToLowerCase(s) == "expense" || ToLowerCase(s) == "income"
    ensures r.Some? ==> ModeName(r.value) == ToLowerCase(s)
  {
    var lower := ToLowerCase(s);
    if lower == ModeName(Expense) then Some(Expense)
    else if lower == ModeName(Income) then Some(Income)
    else None
  }

  /** The stored name of a mode is lower-case and is accepted back as that mode. */
  lemma ModeNameRoundTrip(m: Mode)
    ensures NoUpper(ModeName(m))
    ensures ParseMode(ModeName(m)) == Some(m)
  {
    LowerCaseFixesLower(ModeName(m));
  }

  /** Mixed case is accepted. */
  lemma ParseModeCapitalised()
    ensures ParseMode("Expense") == Some(Expense)
  {
    assert ToLowerCase("Expense") == "expense";
  }

  /** Upper case is accepted too. */
  lemma ParseModeUpperCase()
    ensures ParseMode("INCOME") == Some(Income)
  {
    assert ToLowerCase("INCOME") == "income";
  }

  /** The "Balance" of the handlers' doc comments is not a supported mode. */
  lemma ParseModeRejectsBalance()
    ensures ParseMode("Balance") == None
  {
    assert ToLowerCase("Balance")[0] == 'b';
  }

  /** The month and year of a record's `datetime`, as `$month` and `$year` extract them. */
  datatype Stamp = Stamp(month: int, year: int)

  datatype Record = Record(
    id: RecordId,
    user: UserId,
    stamp: Stamp,
    mode: Mode,
    category: string,
    card: CardId,
    value: int,
    note: string,
    picture: string)

  /** The effect of `value` in `mode` on a card's usedTotal: income adds, expense subtracts. */
  function Effect(m: Mode, value: int): (e: int)
    ensures m == Income ==> e == value
    ensures m == Expense ==> e == -value
  {
    if m == Income then value else -value
  }

  lemma EffectIsLinear(m: Mode, a: int, b: int)
    ensures Effect(m, a - b) == Effect(m, a) - Effect(m, b)
    ensures Effect(m, a) == 0 <==> a == 0
  {
  }

  /** The key of the `/records` group stage: category, mode, month and year. */
  datatype GroupKey = GroupKey(category: string, mode: Mode, month: int, year: int)

  function KeyOf(r: Record): GroupKey {
    GroupKey(r.category, r.mode, r.stamp.month, r.stamp.year)
  }

  // ---------------------------------------------------------------------------
  // The collection

  predicate Absent(rs: seq<Record>, id: RecordId) {
    forall i :: 0 <= i < |rs| ==> rs[i].id != id
  }

  /** `_id` is unique in the collection. */
  predicate UniqueIds(rs: seq<Record>) {
    forall i, j :: 0 <= i < |rs| && 0 <= j < |rs| && rs[i].id == rs[j].id ==> i == j
  }

  /** `findOne({_id})`: the position of the first record with that id. */
  function Find(rs: seq<Record>, id: RecordId): (r: Option<nat>)
    ensures r.None? <==> Absent(rs, id)
    ensures r.Some? ==> r.value < |rs| && rs[r.value].id == id && Absent(rs[..r.value], id)
    decreases |rs|
  {
    if |rs| == 0 then None
    else if rs[0].id == id then Some(0)
    else match Find(rs[1..], id)
      case None => None
      case Some(i) =>
        assert forall j :: 0 <= j < i + 1 ==> rs[..i + 1][j] == rs[j];
        Some(i + 1)
  }

  /** With unique ids the first match is the only match. */
  lemma FindUnique(rs: seq<Record>, i: nat)
    requires UniqueIds(rs) && i < |rs|
    ensures Find(rs, rs[i].id) == Some(i)
  {
  }

  function RemoveAt(rs: seq<Record>, i: nat): (r: seq<Record>)
    requires i < |rs|
    ensures |r| == |rs| - 1
  {
    rs[..i] + rs[i + 1..]
  }

  // ---------------------------------------------------------------------------
  // Sums over the collection

  /** What a sum adds up: signed values on a card, a user's values, or a user's values in one group. */
  datatype Tally = OnCard(card: CardId) | OfUser(user: UserId) | InGroup(user: UserId, key: GroupKey)

  function Weight(r: Record, t: Tally): int {
    match t
    case OnCard(c) => if r.card == c then Effect(r.mode, r.value) else 0
    case OfUser(u) => if r.user == u then r.value else 0
    case InGroup(u, k) => if r.user == u && KeyOf(r) == k then r.value else 0
  }

  function Sum(rs: seq<Record>, t: Tally): int
    decreases |rs|
  {
    if |rs| == 0 then 0 else Sum(rs[..|rs| - 1], t) + Weight(rs[|rs| - 1], t)
  }

  lemma SumAppend(rs: seq<Record>, x: Record, t: Tally)
    ensures Sum(rs + [x], t) == Sum(rs, t) + Weight(x, t)
  {
    assert (rs + [x])[..|rs|] == rs;
  }

  lemma {:induction false} SumConcat(a: seq<Record>, b: seq<Record>, t: Tally)
    ensures Sum(a + b, t) == Sum(a, t) + Sum(b, t)
    decreases |b|
  {
    if |b| == 0 {
      assert a + b == a;
    } else {
      var b' := b[..|b| - 1];
      var x := b[|b| - 1];
      assert b == b' + [x];
      assert a + b == (a + b') + [x];
      SumAppend(a + b', x, t);
      SumAppend(b', x, t);
      SumConcat(a, b', t);
    }
  }

  /** Removing a record takes exactly its weight out of every sum. */
  lemma SumRemoveAt(rs: seq<Record>, i: nat, t: Tally)
    requires i < |rs|
    ensures Sum(RemoveAt(rs, i), t) == Sum(rs, t) - Weight(rs[i], t)
  {
    assert rs == rs[..i] + [rs[i]] + rs[i + 1..];
    SumConcat(rs[..i] + [rs[i]], rs[i + 1..], t);
    SumAppend(rs[..i], rs[i], t);
    SumConcat(rs[..i], rs[i + 1..], t);
  }

  /** Replacing a record swaps its weight for the new one's in every sum. */
  lemma SumUpdate(rs: seq<Record>, i: nat, x: Record, t: Tally)
    requires i < |rs|
    ensures Sum(rs[i := x], t) == Sum(rs, t) - Weight(rs[i], t) + Weight(x, t)
  {
    assert rs == rs[..i] + [rs[i]] + rs[i + 1..];
    assert rs[i := x] == rs[..i] + [x] + rs[i + 1..];
    SumConcat(rs[..i] + [rs[i]], rs[i + 1..], t);
    SumConcat(rs[..i] + [x], rs[i + 1..], t);
    SumAppend(rs[..i], rs[i], t);
    SumAppend(rs[..i], x, t);
  }
}

=== FILE: record_queries.dfy ===
/**
 * The two read-only aggregations of app/routes/record.js: the per-user
 * group sums of `GET /records` and the filtered detail rows of
 * `GET /records/:mode/:category`.
 */
module RecordQueries {
  import opened Basics
  import opened JsText
  import opened CardModel
  import opened RecordModel
  import opened RecordRoutes

  /** One output document of the `$group` stage: its `_id` fields and `sum`. */
  datatype Group = Group(key: GroupKey, sum: int)

  /** One output document of the `$project` stage (the formatted `time` string is left out). */
  datatype Row = Row(
    id: RecordId,
    month: int,
    year: int,
    mode: Mode,
    category: string,
    card: CardId,
    value: int,
    note: string,
    picture: string)

  // ---------------------------------------------------------------------------
  // GET /records

  predicate DistinctKeys(gs: seq<Group>) {
    forall i, j :: 0 <= i < |gs| && 0 <= j < |gs| && gs[i].key == gs[j].key ==> i == j
  }

  predicate HasKey(gs: seq<Group>, k: GroupKey) {
    exists j :: 0 <= j < |gs| && gs[j].key == k
  }

  /** Where the group with key `k` sits, if there is one. */
  function KeyIndex(gs: seq<Group>, k: GroupKey): (r: Option<nat>)
    ensures r.Some? ==> r.value < |gs| && gs[r.value].key == k
    ensures r.None? ==> !HasKey(gs, k)
    decreases |gs|
  {
    if |gs| == 0 then None
    else if gs[0].key == k then Some(0)
    else match KeyIndex(gs[1..], k)
      case None => None
      case Some(j) => Some(j + 1)
  }

  /** The sum of the `sum` fields of all groups. */
  function Total(gs: seq<Group>): int
    decreases |gs|
  {
    if |gs| == 0 then 0 else Total(gs[..|gs| - 1]) + gs[|gs| - 1].sum
  }

  lemma TotalAppend(gs: seq<Group>, g: Group)
    ensures Total(gs + [g]) == Total(gs) + g.sum
  {
    assert (gs + [g])[..|gs|] == gs;
  }

  lemma {:induction false} TotalUpdate(gs: seq<Group>, j: nat, g: Group)
    requires j < |gs|
    ensures Total(gs[j := g]) == Total(gs) - gs[j].sum + g.sum
    decreases |gs|
  {
    var n := |gs| - 1;
    if j == n {
      assert gs[j := g][..n] == gs[..n];
    } else {
      assert gs[j := g][..n] == gs[..n][j := g];
      TotalUpdate(gs[..n], j, g);
    }
  }

  /** A group no record of the user falls into sums to zero. */
  lemma {:induction false} SumOfEmptyGroup(rs: seq<Record>, user: UserId, k: GroupKey)
    requires forall i :: 0 <= i < |rs| ==> !(rs[i].user == user && KeyOf(rs[i]) == k)
    ensures Sum(rs, InGroup(user, k)) == 0
    decreases |rs|
  {
    if |rs| > 0 {
      SumOfEmptyGroup(rs[..|rs| - 1], user, k);
    }
  }

  /** Each group's sum is the total value of the user's records with its key. */
  ghost predicate SumsMatch(gs: seq<Group>, rs: seq<Record>, user: UserId) {
    forall j :: 0 <= j < |gs| ==> gs[j].sum == Sum(rs, InGroup(user, gs[j].key))
  }

  /** Every record of the user has its group. */
  ghost predicate Covers(gs: seq<Group>, rs: seq<Record>, user: UserId) {
    forall i :: 0 <= i < |rs| && rs[i].user == user ==> HasKey(gs, KeyOf(rs[i]))
  }

  /** Every group has a record of the user behind it. */
  ghost predicate Witnessed(gs: seq<Group>, rs: seq<Record>, user: UserId) {
    forall g :: g in gs ==> exists i :: 0 <= i < |rs| && rs[i].user == user && KeyOf(rs[i]) == g.key
  }

  /** `gs` is the `$group` output for the user's records among `rs`. */
  ghost predicate GroupsOf(gs: seq<Group>, rs: seq<Record>, user: UserId) {
    && DistinctKeys(gs)
    && SumsMatch(gs, rs, user)
    && Covers(gs, rs, user)
    && Witnessed(gs, rs, user)
    && Total(gs) == Sum(rs, OfUser(user))
  }

  /** One step of the `$group` stage: a record of the user adds its value to its key's group, opening it if need be. */
  function AddToGroups(gs: seq<Group>, rec: Record, user: UserId): seq<Group> {
    if rec.user != user then gs
    else match KeyIndex(gs, KeyOf(rec))
      case Some(j) => gs[j := Group(gs[j].key, gs[j].sum + rec.value)]
      case None => gs + [Group(KeyOf(rec), rec.value)]
  }

  lemma AddKeepsKeys(gs: seq<Group>, rec: Record, user: UserId)
    requires DistinctKeys(gs)
    ensures var gs' := AddToGroups(gs, rec, user);
      && DistinctKeys(gs')
      && |gs'| >= |gs|
      && (forall j :: 0 <= j < |gs| ==> gs'[j].key == gs[j].key)
      && (forall j :: |gs| <= j < |gs'| ==> rec.user == user && gs'[j].key == KeyOf(rec))
      && (rec.user == user ==> HasKey(gs', KeyOf(rec)))
  {
    var gs' := AddToGroups(gs, rec, user);
    if rec.user == user {
      match KeyIndex(gs, KeyOf(rec))
      case Some(j) =>
        assert gs'[j].key == KeyOf(rec);
      case None =>
        assert gs'[|gs|].key == KeyOf(rec);
    }
  }

  lemma AddKeepsSums(gs: seq<Group>, rs: seq<Record>, rec: Record, user: UserId)
    requires DistinctKeys(gs) && SumsMatch(gs, rs, user) && Covers(gs, rs, user)
    ensures SumsMatch(AddToGroups(gs, rec, user), rs + [rec], user)
  {
    var gs' := AddToGroups(gs, rec, user);
    AddKeepsKeys(gs, rec, user);
    forall j | 0 <= j < |gs'| ensures gs'[j].sum == Sum(rs + [rec], InGroup(user, gs'[j].key)) {
      SumAppend(rs, rec, InGroup(user, gs'[j].key));
      if j >= |gs| {
        assert forall i :: 0 <= i < |rs| ==> !(rs[i].user == user && KeyOf(rs[i]) == KeyOf(rec));
        SumOfEmptyGroup(rs, user, KeyOf(rec));
      }
    }
  }

  lemma AddKeepsCover(gs: seq<Group>, rs: seq<Record>, rec: Record, user: UserId)
    requires DistinctKeys(gs) && Covers(gs, rs, user) && Witnessed(gs, rs, user)
    ensures Covers(AddToGroups(gs, rec, user), rs + [rec], user)
    ensures Witnessed(AddToGroups(gs, rec, user), rs + [rec], user)
  {
    var gs' := AddToGroups(gs, rec, user);
    var rs' := rs + [rec];
    AddKeepsKeys(gs, rec, user);
    forall i | 0 <= i < |rs'| && rs'[i].user == user ensures HasKey(gs', KeyOf(rs'[i])) {
      if i < |rs| {
        assert rs'[i] == rs[i];
        var j :| 0 <= j < |gs| && gs[j].key == KeyOf(rs[i]);
        assert gs'[j].key == KeyOf(rs[i]);
      }
    }
    forall g | g in gs' ensures exists i :: 0 <= i < |rs'| && rs'[i].user == user && KeyOf(rs'[i]) == g.key {
      var j :| 0 <= j < |gs'| && gs'[j] == g;
      if j < |gs| {
        assert gs[j] in gs;
        var i :| 0 <= i < |rs| && rs[i].user == user && KeyOf(rs[i]) == gs[j].key;
        assert rs'[i] == rs[i];
        assert 0 <= i < |rs'| && rs'[i].user == user && KeyOf(rs'[i]) == g.key;
      } else {
        assert rs'[|rs|] == rec;
        assert 0 <= |rs| < |rs'| && rs'[|rs|].user == user && KeyOf(rs'[|rs|]) == g.key;
      }
    }
  }

  lemma AddKeepsTotal(gs: seq<Group>, rs: seq<Record>, rec: Record, user: UserId)
    requires Total(gs) == Sum(rs, OfUser(user))
    ensures Total(AddToGroups(gs, rec, user)) == Sum(rs + [rec], OfUser(user))
  {
    SumAppend(rs, rec, OfUser(user));
    if rec.user == user {
      match KeyIndex(gs, KeyOf(rec))
      case Some(j) => TotalUpdate(gs, j, Group(gs[j].key, gs[j].sum + rec.value));
      case None => TotalAppend(gs, Group(KeyOf(rec), rec.value));
    }
  }

  lemma AddKeepsGroupsOf(gs: seq<Group>, rs: seq<Record>, rec: Record, user: UserId)
    requires GroupsOf(gs, rs, user)
    ensures GroupsOf(AddToGroups(gs, rec, user), rs + [rec], user)
  {
    AddKeepsKeys(gs, rec, user);
    AddKeepsSums(gs, rs, rec, user);
    AddKeepsCover(gs, rs, rec, user);
    AddKeepsTotal(gs, rs, rec, user);
  }

  /**
   * `GET /records?id=user`: one group per (category, mode, month, year) that
   * occurs among the user's records, each summing the values of exactly the
   * user's records with that key; together the groups sum all the user's values.
   */
  method Summary(rs: seq<Record>, user: string) returns (r: Result<seq<Group>, Error>)
    ensures r.Err? <==> IsEmpty(user)
    ensures r.Err? ==> r.error == BadRequest
    ensures r.Ok? ==> DistinctKeys(r.value)
    ensures r.Ok? ==> forall j :: 0 <= j < |r.value| ==> r.value[j].sum == Sum(rs, InGroup(user, r.value[j].key))
    ensures r.Ok? ==> forall i :: 0 <= i < |rs| && rs[i].user == user ==> HasKey(r.value, KeyOf(rs[i]))
    ensures r.Ok? ==> forall g :: g in r.value ==>
              exists i :: 0 <= i < |rs| && rs[i].user == user && KeyOf(rs[i]) == g.key
    ensures r.Ok? ==> Total(r.value) == Sum(rs, OfUser(user))
  {
    if IsEmpty(user) {
      return Err(BadRequest);
    }
    var groups: seq<Group> := [];
    var i := 0;
    while i < |rs|
      invariant 0 <= i <= |rs|
      invariant GroupsOf(groups, rs[..i], user)
    {
      AddKeepsGroupsOf(groups, rs[..i], rs[i], user);
      assert rs[..i + 1] == rs[..i] + [rs[i]];
      groups := AddToGroups(groups, rs[i], user);
      i := i + 1;
    }
    assert rs[..i] == rs;
    return Ok(groups);
  }

  // ---------------------------------------------------------------------------
  // GET /records/:mode/:category

  /** The `$match` stage: the user's records in the given mode and category. */
  predicate Selected(r: Record, user: UserId, m: Mode, category: string) {
    r.user == user && r.mode == m && r.category == category
  }

  /** The `$project` stage. */
  function Project(r: Record): Row {
    Row(r.id, r.stamp.month, r.stamp.year, r.mode, r.category, r.card, r.value, r.note, r.picture)
  }

  /** The reference answer: the projected matching records, in collection order. */
  function Rows(rs: seq<Record>, user: UserId, m: Mode, category: string): seq<Row>
    decreases |rs|
  {
    if |rs| == 0 then []
    else
      var last := rs[|rs| - 1];
      Rows(rs[..|rs| - 1], user, m, category) + (if Selected(last, user, m, category) then [Project(last)] else [])
  }

  lemma RowsSplit(rs: seq<Record>, user: UserId, m: Mode, category: string)
    requires |rs| > 0
    ensures var n := |rs| - 1;
      Rows(rs, user, m, category)
      == Rows(rs[..n], user, m, category) + (if Selected(rs[n], user, m, category) then [Project(rs[n])] else [])
  {
  }

  /** Every row comes from a selected record: the `i` returned. */
  lemma {:induction false} RowSource(rs: seq<Record>, user: UserId, m: Mode, category: string, j: nat) returns (i: nat)
    requires j < |Rows(rs, user, m, category)|
    ensures i < |rs| && Selected(rs[i], user, m, category) && Project(rs[i]) == Rows(rs, user, m, category)[j]
    decreases |rs|
  {
    var n := |rs| - 1;
    RowsSplit(rs, user, m, category);
    var front := Rows(rs[..n], user, m, category);
    if j < |front| {
      i := RowSource(rs[..n], user, m, category, j);
      assert rs[..n][i] == rs[i];
    } else {
      i := n;
    }
  }

  /** Every selected record has its row: the `j` returned. */
  lemma {:induction false} RowOf(rs: seq<Record>, user: UserId, m: Mode, category: string, i: nat) returns (j: nat)
    requires i < |rs| && Selected(rs[i], user, m, category)
    ensures j < |Rows(rs, user, m, category)| && Rows(rs, user, m, category)[j] == Project(rs[i])
    decreases |rs|
  {
    var n := |rs| - 1;
    RowsSplit(rs, user, m, category);
    var front := Rows(rs[..n], user, m, category);
    if i < n {
      assert rs[..n][i] == rs[i];
      j := RowOf(rs[..n], user, m, category, i);
    } else {
      j := |front|;
    }
  }

  /** The `$match` and `$project` stages run over the collection. */
  method SelectRows(rs: seq<Record>, user: UserId, m: Mode, category: string) returns (rows: seq<Row>)
    ensures rows == Rows(rs, user, m, category)
    ensures forall row :: row in rows ==>
              exists k :: 0 <= k < |rs| && Selected(rs[k], user, m, category) && Project(rs[k]) == row
    ensures forall k :: 0 <= k < |rs| && Selected(rs[k], user, m, category) ==> Project(rs[k]) in rows
  {
    rows := [];
    var i := 0;
    while i < |rs|
      invariant 0 <= i <= |rs|
      invariant rows == Rows(rs[..i], user, m, category)
    {
      assert rs[..i + 1][..i] == rs[..i];
      if Selected(rs[i], user, m, category) {
        rows := rows + [Project(rs[i])];
      }
      i := i + 1;
    }
    assert rs[..i] == rs;
    forall row | row in rows
      ensures exists k :: 0 <= k < |rs| && Selected(rs[k], user, m, category) && Project(rs[k]) == row
    {
      var j :| 0 <= j < |rows| && rows[j] == row;
      var k := RowSource(rs, user, m, category, j);
      assert 0 <= k < |rs| && Selected(rs[k], user, m, category) && Project(rs[k]) == row;
    }
    forall k | 0 <= k < |rs| && Selected(rs[k], user, m, category)
      ensures Project(rs[k]) in rows
    {
      var j := RowOf(rs, user, m, category, k);
    }
  }

  /**
   * `GET /records/:mode/:category?id=user`: the projections of exactly the
   * user's records with that category and the lower-cased mode, in
   * collection order. The user id itself is not checked.
   */
  method ByCategory(rs: seq<Record>, user: string, mode: string, category: string) returns (r: Result<seq<Row>, Error>)
    ensures r == Err(BadRequest) <==> IsEmpty(mode) || IsEmpty(category)
    ensures r == Err(UnsupportedMode) <==> !IsEmpty(mode) && !IsEmpty(category) && ParseMode(mode).None?
    ensures r.Ok? ==> ParseMode(mode).Some? && r.value == Rows(rs, user, ParseMode(mode).value, category)
    ensures r.Ok? ==> forall row :: row in r.value ==>
              exists i :: 0 <= i < |rs| && rs[i].user == user && ModeName(rs[i].mode) == ToLowerCase(mode)
                          && rs[i].category == category && Project(rs[i]) == row
    ensures r.Ok? ==> forall i ::
              (0 <= i < |rs| && rs[i].user == user && ModeName(rs[i].mode) == ToLowerCase(mode) && rs[i].category == category)
              ==> Project(rs[i]) in r.value
  {
    if IsEmpty(mode) || IsEmpty(category) {
      return Err(BadRequest);
    }
    var parsed := ParseMode(mode);
    if parsed.None? {
      return Err(UnsupportedMode);
    }
    var m := parsed.value;
    forall x: Mode ensures ModeName(x) == ToLowerCase(mode) <==> x == m {
      assert ModeName(m) == ToLowerCase(mode);
      assert ModeName(x) == ModeName(m) ==> x == m;
    }
    var rows := SelectRows(rs, user, m, category);
    return Ok(rows);
  }
}

=== FILE: record_routes.dfy ===
/**
 * The three mutating handlers of app/routes/record.js, as written: each is a
 * single step from a store and a request to a new store or an error. The
 * card saves, which the source chains without waiting, happen together with
 * the record write here. What the code fixes is the order inside one
 * request: a `.then` callback runs only after the code that registered it,
 * so in the edit handler lines 305-311 revise the record before any card
 * callback reads `record.value`. `parseInt` applied to a stored number is
 * that number (JsText.ParseIntOfNumber), so the counters are used as they are.
 */
module RecordRoutes {
  import opened Basics
  import opened JsText
  import opened CardModel
  import opened RecordModel

  /** The two collections the handlers touch. */
  datatype Store = Store(cards: map<CardId, Card>, records: seq<Record>)

  /**
   * The error replies: 400 "Bad request.", "Now, we just supported 'Expense'
   * and 'Income'.", "This card does not exist." and a missing record (an
   * explicit reply on edit, the TypeError caught by `.catch` on delete).
   */
  datatype Error = BadRequest | UnsupportedMode | CardNotFound | RecordNotFound

  /**
   * The body of `POST /record/create`. `stamp` is the month and year of
   * `new Date(parseInt(datetime)*1000)`; absent optional fields are `None`.
   */
  datatype CreateRequest = CreateRequest(
    user: string,
    stamp: Stamp,
    mode: string,
    category: string,
    card: string,
    value: string,
    note: Option<string>,
    picture: Option<string>)

  /** The body of `PATCH /record/edit`: no mode and no user. */
  datatype EditRequest = EditRequest(
    id: string,
    datetime: string,
    stamp: Stamp,
    category: string,
    card: string,
    value: string,
    note: Option<string>,
    picture: Option<string>)

  /**
   * `DELETE /record/delete`: the body's `id`, which may be missing (`None`)
   * or present and empty, and the query string's `id` ("" when missing).
   */
  datatype DeleteRequest = DeleteRequest(bodyId: Option<string>, queryId: string)

  // ---------------------------------------------------------------------------
  // Boundary validation

  /** What `/record/create` has made of a body that passed both of its checks. */
  datatype Entry = Entry(
    user: UserId,
    stamp: Stamp,
    mode: Mode,
    category: string,
    card: CardId,
    value: int,
    note: string,
    picture: string)

  /** What `/record/edit` has made of a body that passed its check. */
  datatype Revision = Revision(
    id: RecordId,
    stamp: Stamp,
    category: string,
    card: CardId,
    value: int,
    note: string,
    picture: string)

  predicate CreateMalformed(q: CreateRequest) {
    IsEmpty(q.user) || IsEmpty(q.mode) || IsEmpty(q.category) || IsEmpty(q.card)
    || ParseInt(q.value).None?
  }

  /**
   * The two checks `/record/create` makes before it looks at the database,
   * and the entry it goes on with: the lower-cased mode, `parseInt` of the
   * value, "" for a missing note or picture.
   */
  function CheckCreate(q: CreateRequest): (r: Result<Entry, Error>)
    ensures r == Err(BadRequest) <==> CreateMalformed(q)
    ensures r == Err(UnsupportedMode) <==> !CreateMalformed(q) && ParseMode(q.mode).None?
    ensures r.Err? ==> r.error == BadRequest || r.error == UnsupportedMode
    ensures r.Ok? ==>
      && r.value.user == q.user && r.value.stamp == q.stamp && r.value.category == q.category
      && r.value.card == q.card && ModeName(r.value.mode) == ToLowerCase(q.mode)
      && ParseInt(q.value) == Some(r.value.value)
      && r.value.note == q.note.GetOr("") && r.value.picture == q.picture.GetOr("")
  {
    if CreateMalformed(q) then Err(BadRequest)
    else match ParseMode(q.mode)
      case None => Err(UnsupportedMode)
      case Some(m) =>
        Ok(Entry(q.user, q.stamp, m, q.category, q.card, ParseInt(q.value).value,
                 q.note.GetOr(""), q.picture.GetOr("")))
  }

  predicate EditMalformed(q: EditRequest) {
    IsEmpty(q.id) || IsEmpty(q.datetime) || IsEmpty(q.category) || IsEmpty(q.card)
    || ParseInt(q.value).None?
  }

  /** The one check `/record/edit` makes, and the revision it goes on with. */
  function CheckEdit(q: EditRequest): (r: Result<Revision, Error>)
    ensures r.Err? <==> EditMalformed(q)
    ensures r.Err? ==> r.error == BadRequest
    ensures r.Ok? ==>
      && r.value.id == q.id && r.value.stamp == q.stamp && r.value.category == q.category
      && r.value.card == q.card && ParseInt(q.value) == Some(r.value.value)
      && r.value.note == q.note.GetOr("") && r.value.picture == q.picture.GetOr("")
  {
    if EditMalformed(q) then Err(BadRequest)
    else Ok(Revision(q.id, q.stamp, q.category, q.card, ParseInt(q.value).value,
                     q.note.GetOr(""), q.picture.GetOr("")))
  }

  /**
   * `req.body.id || req.param("id")`. The route has no `:id` parameter, so
   * `req.param` gives the body's id whenever the body has one (even "") and
   * the query's otherwise: a body id sent as "" yields "", not the query id.
   */
  function DeleteTarget(q: DeleteRequest): (id: string)
    ensures q.bodyId.Some? ==> id == q.bodyId.value
    ensures q.bodyId.None? ==> id == q.queryId
    ensures IsEmpty(id) <==> if q.bodyId.Some? then IsEmpty(q.bodyId.value) else IsEmpty(q.queryId)
  {
    if q.bodyId.Some? then q.bodyId.value else q.queryId
  }

  /** The create body a client sends for an entry: the mode's stored name and the value's decimal text. */
  function CreateRequestOf(e: Entry): CreateRequest {
    CreateRequest(e.user, e.stamp, ModeName(e.mode), e.category, e.card, ShowInt(e.value),
                  Some(e.note), Some(e.picture))
  }

  /** Every entry with its required fields given is what CheckCreate makes of its own request. */
  lemma CheckCreateRoundTrip(e: Entry)
    requires !IsEmpty(e.user) && !IsEmpty(e.category) && !IsEmpty(e.card)
    ensures CheckCreate(CreateRequestOf(e)) == Ok(e)
  {
    ParseIntOfNumber(e.value);
    ModeNameRoundTrip(e.mode);
    assert !IsEmpty(ModeName(e.mode));
  }

  /** Validating a create body, re-sending the entry and validating again gives the same entry. */
  lemma CheckCreateNormalises(q: CreateRequest)
    requires CheckCreate(q).Ok?
    ensures CheckCreate(CreateRequestOf(CheckCreate(q).value)) == CheckCreate(q)
  {
    CheckCreateRoundTrip(CheckCreate(q).value);
  }

  /** The edit body a client sends for a revision, with the raw `datetime` text it came with. */
  function EditRequestOf(rv: Revision, datetime: string): EditRequest {
    EditRequest(rv.id, datetime, rv.stamp, rv.category, rv.card, ShowInt(rv.value),
                Some(rv.note), Some(rv.picture))
  }

  /** Every revision with its required fields given is what CheckEdit makes of its own request. */
  lemma CheckEditRoundTrip(rv: Revision, datetime: string)
    requires !IsEmpty(rv.id) && !IsEmpty(datetime) && !IsEmpty(rv.category) && !IsEmpty(rv.card)
    ensures CheckEdit(EditRequestOf(rv, datetime)) == Ok(rv)
  {
    ParseIntOfNumber(rv.value);
  }

  /** Validating an edit body, re-sending the revision and validating again gives the same revision. */
  lemma CheckEditNormalises(q: EditRequest)
    requires CheckEdit(q).Ok?
    ensures CheckEdit(EditRequestOf(CheckEdit(q).value, q.datetime)) == CheckEdit(q)
  {
    CheckEditRoundTrip(CheckEdit(q).value, q.datetime);
  }

  // ---------------------------------------------------------------------------
  // Counter updates, one per handler branch

  /** Sets the two counters of one stored card, leaving everything else as it was. */
  function SetCounters(cards: map<CardId, Card>, id: CardId, used: int, balance: Option<int>): (r: map<CardId, Card>)
    requires id in cards
    ensures OnlyCountersChange(cards, r)
    ensures forall k :: k in cards && k != id ==> r[k] == cards[k]
    ensures r[id].usedTotal == used && r[id].balance == balance
  {
    cards[id := cards[id].(usedTotal := used, balance := balance)]
  }

  /**
   * Create: usedTotal moves by the value (down for an expense, up for an
   * income) and then the whole new usedTotal is added to balance. With no
   * balance stored, `+=` yields NaN, the save fails its number cast and the
   * card keeps both counters.
   */
  function ChargeOnCreate(cards: map<CardId, Card>, id: CardId, m: Mode, v: int): (r: map<CardId, Card>)
    requires id in cards
    ensures OnlyCountersChange(cards, r)
    ensures forall k :: k in cards && k != id ==> r[k] == cards[k]
    ensures cards[id].balance.None? ==> r == cards
    ensures cards[id].balance.Some? ==>
      r[id].usedTotal == cards[id].usedTotal + Effect(m, v)
      && r[id].balance == Some(cards[id].balance.value + r[id].usedTotal)
  {
    var c := cards[id];
    var used := if m == Expense then c.usedTotal - v else c.usedTotal + v;
    match c.balance
    case None => cards
    case Some(b) => SetCounters(cards, id, used, Some(b + used))
  }

  /**
   * Delete: the value goes back onto both counters (up for an expense, down
   * for an income). A card that is not found is left alone (the lookup's
   * callback throws and nobody waits for it); an absent balance fails the save.
   */
  function RefundOnDelete(cards: map<CardId, Card>, rec: Record): (r: map<CardId, Card>)
    ensures OnlyCountersChange(cards, r)
    ensures forall k :: k in cards && k != rec.card ==> r[k] == cards[k]
    ensures rec.card !in cards || cards[rec.card].balance.None? ==> r == cards
    ensures rec.card in cards && cards[rec.card].balance.Some? ==>
      r[rec.card].usedTotal == cards[rec.card].usedTotal - Effect(rec.mode, rec.value)
      && r[rec.card].balance == Some(cards[rec.card].balance.value - Effect(rec.mode, rec.value))
  {
    if rec.card !in cards then cards
    else
      var c := cards[rec.card];
      match c.balance
      case None => cards
      case Some(b) =>
        if rec.mode == Expense then
          SetCounters(cards, rec.card, c.usedTotal + rec.value, Some(b + rec.value))
        else
          SetCounters(cards, rec.card, c.usedTotal - rec.value, Some(b - rec.value))
  }

  /**
   * Edit onto another card: the old card gets the NEW value back, the new
   * card is charged the new value, both in the record's stored mode. Balance
   * is not touched; a card that is not found is skipped.
   */
  function MoveCounters(cards: map<CardId, Card>, from: CardId, to: CardId, m: Mode, v: int): (r: map<CardId, Card>)
    requires from != to
    ensures OnlyCountersChange(cards, r)
    ensures forall k :: k in cards ==> r[k].balance == cards[k].balance
    ensures forall k :: k in cards && k != from && k != to ==> r[k] == cards[k]
    ensures from in cards ==> r[from].usedTotal == cards[from].usedTotal - Effect(m, v)
    ensures to in cards ==> r[to].usedTotal == cards[to].usedTotal + Effect(m, v)
  {
    var afterFrom :=
      if from !in cards then cards
      else
        var c := cards[from];
        SetCounters(cards, from, if m == Expense then c.usedTotal + v
                                 else c.usedTotal - v, c.balance);
    if to !in afterFrom then afterFrom
    else
      var c := afterFrom[to];
      SetCounters(afterFrom, to, if m == Expense then c.usedTotal - v
                                 else c.usedTotal + v, c.balance)
  }

  /**
   * Edit on the same card, lines 282-301. The callback reads
   * `parseInt(record.value)`, and by then line 308 has set `record.value` to
   * the new value `v`; so a card with a non-zero usedTotal gets `v` added and
   * taken off again and does not move, and a card whose usedTotal is exactly
   * 0 gets the signed new value. Balance is not touched; a card that is not
   * found is skipped.
   */
  function ReplaceCounters(cards: map<CardId, Card>, id: CardId, m: Mode, v: int): (r: map<CardId, Card>)
    ensures OnlyCountersChange(cards, r)
    ensures forall k :: k in cards ==> r[k].balance == cards[k].balance
    ensures forall k :: k in cards && k != id ==> r[k] == cards[k]
    ensures id in cards ==> SameCardCounters(cards[id], r[id], m, v)
  {
    if id !in cards then cards
    else
      var c := cards[id];
      var u := c.usedTotal;
      var stored := v;
      var used :=
        if m == Expense then (if c.usedTotal == 0 then u - v else u + stored - v)
        else (if c.usedTotal == 0 then u + v else u - stored + v);
      SetCounters(cards, id, used, c.balance)
  }

  /** The fields an edit rewrites; id, user and mode stay. */
  function Revise(rec: Record, rv: Revision): (r: Record)
    ensures r.id == rec.id && r.user == rec.user && r.mode == rec.mode
    ensures r.stamp == rv.stamp && r.category == rv.category && r.card == rv.card
    ensures r.value == rv.value && r.note == rv.note && r.picture == rv.picture
  {
    rec.(stamp := rv.stamp, category := rv.category, card := rv.card, value := rv.value,
         note := rv.note, picture := rv.picture)
  }

  /** The record an entry becomes under the id the database gives it. */
  function Posted(e: Entry, id: RecordId): (r: Record)
    ensures r.id == id && r.user == e.user && r.stamp == e.stamp && r.mode == e.mode
    ensures r.category == e.category && r.card == e.card && r.value == e.value
    ensures r.note == e.note && r.picture == e.picture
  {
    Record(id, e.user, e.stamp, e.mode, e.category, e.card, e.value, e.note, e.picture)
  }

  // ---------------------------------------------------------------------------
  // Handlers

  /**
   * The database part of `POST /record/create`, lines 47-76: a missing card
   * is refused before anything is written; otherwise the record is appended
   * under `newId`, the ObjectId it gets, and its card is charged.
   */
  function Insert(st: Store, e: Entry, newId: RecordId): (r: Result<Store, Error>)
    requires Absent(st.records, newId)
    ensures r.Err? <==> e.card !in st.cards
    ensures r.Err? ==> r.error == CardNotFound
    ensures r.Ok? ==> r.value.records == st.records + [Posted(e, newId)]
    ensures r.Ok? ==> OnlyCountersChange(st.cards, r.value.cards)
    ensures r.Ok? ==> forall k :: k in st.cards && k != e.card ==> r.value.cards[k] == st.cards[k]
    ensures r.Ok? && st.cards[e.card].balance.None? ==> r.value.cards == st.cards
    ensures r.Ok? && st.cards[e.card].balance.Some? ==>
      var before, after := st.cards[e.card], r.value.cards[e.card];
      && after.usedTotal == before.usedTotal + Effect(e.mode, e.value)
      && after.balance == Some(before.balance.value + after.usedTotal)
  {
    if e.card !in st.cards then Err(CardNotFound)
    else Ok(Store(ChargeOnCreate(st.cards, e.card, e.mode, e.value), st.records + [Posted(e, newId)]))
  }

  /** The record `/record/create` stores, with the lower-cased mode and "" for a missing note or picture. */
  predicate StoredAsRequested(rec: Record, q: CreateRequest, newId: RecordId) {
    && rec.id == newId && rec.user == q.user && rec.stamp == q.stamp
    && ModeName(rec.mode) == ToLowerCase(q.mode) && rec.category == q.category
    && rec.card == q.card && ParseInt(q.value) == Some(rec.value)
    && rec.note == q.note.GetOr("") && rec.picture == q.picture.GetOr("")
  }

  /** `POST /record/create`: validation errors and a missing card change nothing. */
  function Create(st: Store, q: CreateRequest, newId: RecordId): (r: Result<Store, Error>)
    requires Absent(st.records, newId)
    ensures CheckCreate(q).Err? ==> r == Err(CheckCreate(q).error)
    ensures CheckCreate(q).Ok? ==> (r == Err(CardNotFound) <==> q.card !in st.cards)
    ensures CheckCreate(q).Ok? && q.card in st.cards ==> r.Ok?
    ensures r.Ok? ==> && |r.value.records| == |st.records| + 1
                      && r.value.records[..|st.records|] == st.records
                      && StoredAsRequested(r.value.records[|st.records|], q, newId)
  {
    match CheckCreate(q)
    case Err(err) => Err(err)
    case Ok(e) =>
      var r := Insert(st, e, newId);
      if r.Err? then r
      else
        var rs := r.value.records;
        assert rs[..|st.records|] == st.records && rs[|st.records|] == Posted(e, newId);
        r
  }

  /** `DELETE /record/delete`: the record goes, and its card gets its value back. */
  function Delete(st: Store, q: DeleteRequest): (r: Result<Store, Error>)
    ensures r == Err(BadRequest) <==> IsEmpty(DeleteTarget(q))
    ensures r == Err(RecordNotFound) <==> !IsEmpty(DeleteTarget(q)) && Absent(st.records, DeleteTarget(q))
    ensures r.Err? ==> r.error == BadRequest || r.error == RecordNotFound
    ensures r.Ok? ==> Find(st.records, DeleteTarget(q)).Some?
    ensures r.Ok? ==> r.value.records == RemoveAt(st.records, Find(st.records, DeleteTarget(q)).value)
    ensures r.Ok? ==> OnlyCountersChange(st.cards, r.value.cards)
    ensures r.Ok? ==>
      var rec := st.records[Find(st.records, DeleteTarget(q)).value];
      && (forall k :: k in st.cards && k != rec.card ==> r.value.cards[k] == st.cards[k])
      && (rec.card !in st.cards || st.cards[rec.card].balance.None? ==> r.value.cards == st.cards)
      && (rec.card in st.cards && st.cards[rec.card].balance.Some? ==>
            var before, after := st.cards[rec.card], r.value.cards[rec.card];
            && after.usedTotal == before.usedTotal - Effect(rec.mode, rec.value)
            && after.balance == Some(before.balance.value - Effect(rec.mode, rec.value)))
  {
    var id := DeleteTarget(q);
    if IsEmpty(id) then Err(BadRequest)
    else match Find(st.records, id)
      case None => Err(RecordNotFound)
      case Some(i) => Ok(Store(RefundOnDelete(st.cards, st.records[i]), RemoveAt(st.records, i)))
  }

  /**
   * The counters after an edit that keeps the record on its card with the
   * new value `v`: a usedTotal of 0 becomes the signed new value, any other
   * usedTotal stays, whatever the old value was.
   */
  predicate SameCardCounters(before: Card, after: Card, m: Mode, v: int) {
    after.usedTotal == (if before.usedTotal == 0 then Effect(m, v) else before.usedTotal)
  }

  /**
   * The database part of `PATCH /record/edit`, lines 252-311: the record is
   * revised in place, and the counters of its old and new card move; balance
   * is never touched. The revision of lines 305-311 comes first, so the
   * counters see the revised record's value (ReplaceCounters).
   */
  function Amend(st: Store, rv: Revision): (r: Result<Store, Error>)
    ensures r.Err? <==> Absent(st.records, rv.id)
    ensures r.Err? ==> r.error == RecordNotFound
    ensures r.Ok? ==> Find(st.records, rv.id).Some?
    ensures r.Ok? ==>
      var i := Find(st.records, rv.id).value;
      r.value.records == st.records[i := Revise(st.records[i], rv)]
    ensures r.Ok? ==> OnlyCountersChange(st.cards, r.value.cards)
    ensures r.Ok? ==> forall k :: k in st.cards ==> r.value.cards[k].balance == st.cards[k].balance
    ensures r.Ok? ==>
      var rec := st.records[Find(st.records, rv.id).value];
      && (forall k :: k in st.cards && k != rec.card && k != rv.card ==> r.value.cards[k] == st.cards[k])
      && (rec.card == rv.card && rv.card in st.cards ==>
            SameCardCounters(st.cards[rv.card], r.value.cards[rv.card], rec.mode, rv.value))
      && (rec.card != rv.card && rec.card in st.cards ==>
            r.value.cards[rec.card].usedTotal == st.cards[rec.card].usedTotal - Effect(rec.mode, rv.value))
      && (rec.card != rv.card && rv.card in st.cards ==>
            r.value.cards[rv.card].usedTotal == st.cards[rv.card].usedTotal + Effect(rec.mode, rv.value))
  {
    match Find(st.records, rv.id)
    case None => Err(RecordNotFound)
    case Some(i) =>
      var rec := st.records[i];
      var cards :=
        if rec.card != rv.card then MoveCounters(st.cards, rec.card, rv.card, rec.mode, rv.value)
        else ReplaceCounters(st.cards, rv.card, rec.mode, rv.value);
      Ok(Store(cards, st.records[i := Revise(rec, rv)]))
  }

  /** The record after `/record/edit`: the edited fields as requested, id, user and mode as before. */
  predicate RevisedAsRequested(before: Record, after: Record, q: EditRequest) {
    && after.id == before.id && after.user == before.user && after.mode == before.mode
    && after.stamp == q.stamp && after.category == q.category && after.card == q.card
    && ParseInt(q.value) == Some(after.value)
    && after.note == q.note.GetOr("") && after.picture == q.picture.GetOr("")
  }

  /** A body id sent as "" is refused, whatever the query string says. */
  lemma DeleteEmptyBodyId(st: Store, query: string)
    ensures Delete(st, DeleteRequest(Some(""), query)) == Err(BadRequest)
  {
  }

  /** With no id in the body, the query's id selects the record exactly as a body id would. */
  lemma DeleteByQueryId(st: Store, query: string)
    ensures Delete(st, DeleteRequest(None, query)) == Delete(st, DeleteRequest(Some(query), ""))
  {
  }

  /** `PATCH /record/edit`: a malformed body or a missing record changes nothing. */
  function Edit(st: Store, q: EditRequest): (r: Result<Store, Error>)
    ensures r == Err(BadRequest) <==> EditMalformed(q)
    ensures r == Err(RecordNotFound) <==> !EditMalformed(q) && Absent(st.records, q.id)
    ensures r.Err? ==> r.error == BadRequest || r.error == RecordNotFound
    ensures r.Ok? ==> Find(st.records, q.id).Some?
    ensures r.Ok? ==>
      var i := Find(st.records, q.id).value;
      && |r.value.records| == |st.records|
      && r.value.records == st.records[i := r.value.records[i]]
      && RevisedAsRequested(st.records[i], r.value.records[i], q)
    ensures r.Ok? ==> OnlyCountersChange(st.cards, r.value.cards)
    ensures r.Ok? ==> forall k :: k in st.cards ==> r.value.cards[k].balance == st.cards[k].balance
    ensures r.Ok? ==>
      var i := Find(st.records, q.id).value;
      var rec, v := st.records[i], r.value.records[i].value;
      && (forall k :: k in st.cards && k != rec.card && k != q.card ==> r.value.cards[k] == st.cards[k])
      && (rec.card == q.card && q.card in st.cards ==>
            SameCardCounters(st.cards[q.card], r.value.cards[q.card], rec.mode, v))
      && (rec.card != q.card && rec.card in st.cards ==>
            r.value.cards[rec.card].usedTotal == st.cards[rec.card].usedTotal - Effect(rec.mode, v))
      && (rec.card != q.card && q.card in st.cards ==>
            r.value.cards[q.card].usedTotal == st.cards[q.card].usedTotal + Effect(rec.mode, v))
  {
    match CheckEdit(q)
    case Err(err) => Err(err)
    case Ok(rv) => Amend(st, rv)
  }
}

=== FILE: route_facts.dfy ===
/**
 * What the handlers of app/routes/record.js, as written, do and do not keep
 * of the intended ledger: usedTotal as the signed sum of a card's records,
 * balance as start plus usedTotal, and the store's unique keys.
 */
module RouteFacts {
  import opened Basics
  import opened JsText
  import opened CardModel
  import opened RecordModel
  import opened RecordRoutes

  /** usedTotal of card `k` is the signed sum of the records attributed to it (income up, expense down). */
  ghost predicate UsedAgrees(st: Store, k: CardId)
    requires k in st.cards
  {
    st.cards[k].usedTotal == Sum(st.records, OnCard(k))
  }

  ghost predicate UsedLedger(st: Store) {
    forall k :: k in st.cards ==> UsedAgrees(st, k)
  }

  /** The intended display value: balance is start plus usedTotal. */
  predicate BalanceAgrees(c: Card) {
    c.balance == Some(c.start + c.usedTotal)
  }

  /** The unique indexes: card numbers and record ids. */
  ghost predicate ValidStore(st: Store) {
    UniqueNumbers(st.cards) && UniqueIds(st.records)
  }

  lemma SameCountersSameCard(c1: Card, c2: Card)
    requires SameIdentity(c1, c2)
    requires c2.usedTotal == c1.usedTotal && c2.balance == c1.balance
    ensures c2 == c1
  {
    assert c2 == c2.(usedTotal := c1.usedTotal, balance := c1.balance);
  }

  // ---------------------------------------------------------------------------
  // Create, then delete

  /** The record a successful create appends sits last and is found there by its id. */
  lemma InsertedIsFound(st: Store, e: Entry, newId: RecordId)
    requires Absent(st.records, newId)
    requires Insert(st, e, newId).Ok?
    ensures Find(Insert(st, e, newId).value.records, newId) == Some(|st.records|)
  {
    var rs := Insert(st, e, newId).value.records;
    assert rs[|st.records|].id == newId;
    assert forall j :: 0 <= j < |st.records| ==> rs[j] == st.records[j];
  }

  /**
   * The counters of a card charged for a record and then refunded for it:
   * usedTotal is back, but balance ends at the old balance plus the
   * usedTotal the card had before the charge (create added the new
   * usedTotal, delete takes back only the record's own value).
   */
  lemma ChargeThenRefund(cards: map<CardId, Card>, rec: Record)
    requires rec.card in cards
    ensures
      var after := RefundOnDelete(ChargeOnCreate(cards, rec.card, rec.mode, rec.value), rec);
      var c := cards[rec.card];
      && after.Keys == cards.Keys
      && (forall k :: k in cards ==> after[k].usedTotal == cards[k].usedTotal)
      && (forall k :: k in cards && k != rec.card ==> after[k] == cards[k])
      && (c.balance.Some? ==> after[rec.card].balance == Some(c.balance.value + c.usedTotal))
      && (after == cards <==> c.balance.None? || c.usedTotal == 0)
  {
    var mid := ChargeOnCreate(cards, rec.card, rec.mode, rec.value);
    var after := RefundOnDelete(mid, rec);
    var c := cards[rec.card];
    var c2 := after[rec.card];
    assert SameIdentity(c, c2) by {
      assert SameIdentity(c, mid[rec.card]);
      assert SameIdentity(mid[rec.card], c2);
    }
    if c.balance.None? {
      assert after == cards;
    } else if c.usedTotal == 0 {
      SameCountersSameCard(c, c2);
      assert after == cards;
    } else {
      assert c2 != c;
    }
  }

  /**
   * Deleting a record right after creating it gives back the records and
   * every card's usedTotal exactly; the balance keeps the usedTotal that
   * create added, so the cards come back unchanged exactly when there is no
   * balance or usedTotal was 0.
   */
  lemma CreateThenDelete(st: Store, e: Entry, newId: RecordId)
    requires Absent(st.records, newId) && !IsEmpty(newId)
    requires Insert(st, e, newId).Ok?
    ensures
      var r := Delete(Insert(st, e, newId).value, DeleteRequest(Some(newId), ""));
      var c := st.cards[e.card];
      && r.Ok?
      && r.value.records == st.records
      && r.value.cards.Keys == st.cards.Keys
      && (forall k :: k in st.cards ==> r.value.cards[k].usedTotal == st.cards[k].usedTotal)
      && (forall k :: k in st.cards && k != e.card ==> r.value.cards[k] == st.cards[k])
      && (c.balance.Some? ==> r.value.cards[e.card].balance == Some(c.balance.value + c.usedTotal))
      && (r.value.cards == st.cards <==> c.balance.None? || c.usedTotal == 0)
  {
    var st1 := Insert(st, e, newId).value;
    InsertedIsFound(st, e, newId);
    var n := |st.records|;
    var rec := Posted(e, newId);
    assert st1.records[n] == rec;
    assert RemoveAt(st1.records, n) == st.records by {
      assert st1.records[..n] == st.records;
    }
    assert rec.card == e.card && rec.mode == e.mode && rec.value == e.value;
    assert st1.cards == ChargeOnCreate(st.cards, rec.card, rec.mode, rec.value);
    var r := Delete(st1, DeleteRequest(Some(newId), ""));
    assert r.value.cards == RefundOnDelete(st1.cards, rec);
    ChargeThenRefund(st.cards, rec);
  }

  // ---------------------------------------------------------------------------
  // usedTotal as the signed sum of a card's records

  /**
   * Create keeps every usedTotal equal to its card's signed record sum,
   * except on a card without a balance, whose save fails: there it holds
   * only for a zero value.
   */
  lemma CreateUsedLedger(st: Store, e: Entry, newId: RecordId)
    requires Absent(st.records, newId)
    requires Insert(st, e, newId).Ok?
    requires UsedLedger(st)
    ensures UsedLedger(Insert(st, e, newId).value) <==> st.cards[e.card].balance.Some? || e.value == 0
  {
    var st1 := Insert(st, e, newId).value;
    var rec := Posted(e, newId);
    forall k | k in st.cards
      ensures Sum(st1.records, OnCard(k)) == Sum(st.records, OnCard(k)) + Weight(rec, OnCard(k))
    {
      SumAppend(st.records, rec, OnCard(k));
    }
    EffectIsLinear(e.mode, e.value, 0);
    if st.cards[e.card].balance.None? && !UsedAgrees(st1, e.card) {
      assert !UsedLedger(st1);
    }
  }

  /**
   * Delete keeps every usedTotal equal to its card's signed record sum,
   * except when the record's card has no balance (its save fails) and the
   * value is not zero.
   */
  lemma DeleteUsedLedger(st: Store, q: DeleteRequest)
    requires Delete(st, q).Ok?
    requires UsedLedger(st)
    ensures
      var rec := st.records[Find(st.records, DeleteTarget(q)).value];
      UsedLedger(Delete(st, q).value)
      <==> rec.card !in st.cards || st.cards[rec.card].balance.Some? || rec.value == 0
  {
    var i := Find(st.records, DeleteTarget(q)).value;
    var rec := st.records[i];
    var st1 := Delete(st, q).value;
    forall k | k in st.cards
      ensures Sum(st1.records, OnCard(k)) == Sum(st.records, OnCard(k)) - Weight(rec, OnCard(k))
    {
      SumRemoveAt(st.records, i, OnCard(k));
    }
    EffectIsLinear(rec.mode, rec.value, 0);
    if rec.card in st.cards && st.cards[rec.card].balance.None? && !UsedAgrees(st1, rec.card) {
      assert !UsedLedger(st1);
    }
  }

  /** An edit swaps the old record's weight for the revised one's in every card's sum. */
  lemma AmendSums(st: Store, rv: Revision, k: CardId)
    requires Amend(st, rv).Ok?
    ensures
      var i := Find(st.records, rv.id).value;
      Sum(Amend(st, rv).value.records, OnCard(k))
      == Sum(st.records, OnCard(k)) - Weight(st.records[i], OnCard(k)) + Weight(Revise(st.records[i], rv), OnCard(k))
  {
    var i := Find(st.records, rv.id).value;
    SumUpdate(st.records, i, Revise(st.records[i], rv), OnCard(k));
  }

  /**
   * An edit on the same card: a card with a non-zero usedTotal does not move,
   * so the ledger survives only when the value is unchanged; a card at 0 gets
   * the new value without the old one taken back, so the ledger survives only
   * when that old value was 0.
   */
  lemma EditSameCardUsedLedger(st: Store, rv: Revision)
    requires Amend(st, rv).Ok?
    requires UsedLedger(st)
    requires st.records[Find(st.records, rv.id).value].card == rv.card
    ensures
      var rec := st.records[Find(st.records, rv.id).value];
      UsedLedger(Amend(st, rv).value)
      <==> || rv.card !in st.cards
           || (st.cards[rv.card].usedTotal != 0 && rv.value == rec.value)
           || (st.cards[rv.card].usedTotal == 0 && rec.value == 0)
  {
    var rec := st.records[Find(st.records, rv.id).value];
    var st1 := Amend(st, rv).value;
    forall k | k in st.cards
      ensures Sum(st1.records, OnCard(k)) == Sum(st.records, OnCard(k)) - Weight(rec, OnCard(k)) + Weight(Revise(rec, rv), OnCard(k))
    {
      AmendSums(st, rv, k);
    }
    EffectIsLinear(rec.mode, rv.value, rec.value);
    EffectIsLinear(rec.mode, rec.value, 0);
    EffectIsLinear(rec.mode, rv.value, 0);
    if rv.card in st.cards && st.cards[rv.card].usedTotal == 0 && rec.value != 0 {
      assert !UsedAgrees(st1, rv.card);
    } else if rv.card in st.cards && st.cards[rv.card].usedTotal != 0 && rv.value != rec.value {
      assert !UsedAgrees(st1, rv.card);
    }
  }

  /**
   * An edit that moves a record to another card keeps the ledger only when
   * the value is unchanged: the old card is credited the new value, not the
   * value it was charged.
   */
  lemma EditMoveUsedLedger(st: Store, rv: Revision)
    requires Amend(st, rv).Ok?
    requires UsedLedger(st)
    requires st.records[Find(st.records, rv.id).value].card != rv.card
    ensures
      var rec := st.records[Find(st.records, rv.id).value];
      UsedLedger(Amend(st, rv).value) <==> rec.card !in st.cards || rv.value == rec.value
  {
    var rec := st.records[Find(st.records, rv.id).value];
    var st1 := Amend(st, rv).value;
    forall k | k in st.cards
      ensures Sum(st1.records, OnCard(k)) == Sum(st.records, OnCard(k)) - Weight(rec, OnCard(k)) + Weight(Revise(rec, rv), OnCard(k))
    {
      AmendSums(st, rv, k);
    }
    EffectIsLinear(rec.mode, rv.value, rec.value);
    if rec.card in st.cards && rv.value != rec.value {
      assert !UsedAgrees(st1, rec.card);
    } else {
      forall k | k in st1.cards ensures UsedAgrees(st1, k) {
        assert UsedAgrees(st, k);
        if k == rv.card {
          assert st1.cards[k].usedTotal == st.cards[k].usedTotal + Effect(rec.mode, rv.value);
        } else if k != rec.card {
          assert st1.cards[k] == st.cards[k];
        }
      }
    }
  }

  /** A move takes from one card exactly what it gives the other: their usedTotals keep their sum. */
  lemma EditMoveConserves(st: Store, rv: Revision)
    requires Amend(st, rv).Ok?
    requires
      var rec := st.records[Find(st.records, rv.id).value];
      rec.card != rv.card && rec.card in st.cards && rv.card in st.cards
    ensures
      var from := st.records[Find(st.records, rv.id).value].card;
      var after := Amend(st, rv).value.cards;
      after[from].usedTotal + after[rv.card].usedTotal == st.cards[from].usedTotal + st.cards[rv.card].usedTotal
  {
  }

  // ---------------------------------------------------------------------------
  // balance as start plus usedTotal

  /** Create adds the whole new usedTotal to balance, which is right only on a card whose usedTotal was 0. */
  lemma CreateBalanceLedger(st: Store, e: Entry, newId: RecordId)
    requires Absent(st.records, newId)
    requires Insert(st, e, newId).Ok?
    requires BalanceAgrees(st.cards[e.card])
    ensures BalanceAgrees(Insert(st, e, newId).value.cards[e.card]) <==> st.cards[e.card].usedTotal == 0
  {
    var c := st.cards[e.card];
    var c1 := Insert(st, e, newId).value.cards[e.card];
    assert SameIdentity(c, c1);
    assert c1.start == c.start;
  }

  /** Delete moves balance with usedTotal, so balance stays start plus usedTotal on every card. */
  lemma DeleteBalanceLedger(st: Store, q: DeleteRequest)
    requires Delete(st, q).Ok?
    requires forall k :: k in st.cards ==> BalanceAgrees(st.cards[k])
    ensures forall k :: k in Delete(st, q).value.cards ==> BalanceAgrees(Delete(st, q).value.cards[k])
  {
    var after := Delete(st, q).value.cards;
    forall k | k in after ensures BalanceAgrees(after[k]) {
      assert SameIdentity(st.cards[k], after[k]);
    }
  }

  /** Edits never touch balance: a card keeps balance equal to start plus usedTotal only if its usedTotal did not move. */
  lemma EditBalanceLedger(st: Store, rv: Revision, k: CardId)
    requires Amend(st, rv).Ok?
    requires k in st.cards && BalanceAgrees(st.cards[k])
    ensures BalanceAgrees(Amend(st, rv).value.cards[k])
            <==> Amend(st, rv).value.cards[k].usedTotal == st.cards[k].usedTotal
  {
    assert SameIdentity(st.cards[k], Amend(st, rv).value.cards[k]);
  }

  // ---------------------------------------------------------------------------
  // Unique keys

  lemma CreateKeepsValid(st: Store, e: Entry, newId: RecordId)
    requires Absent(st.records, newId)
    requires ValidStore(st) && Insert(st, e, newId).Ok?
    ensures ValidStore(Insert(st, e, newId).value)
  {
    var st1 := Insert(st, e, newId).value;
    CountersKeepNumbersUnique(st.cards, st1.cards);
    var n := |st.records|;
    assert forall k :: 0 <= k < n ==> st1.records[k] == st.records[k];
    assert st1.records[n].id == newId;
  }

  lemma DeleteKeepsValid(st: Store, q: DeleteRequest)
    requires ValidStore(st) && Delete(st, q).Ok?
    ensures ValidStore(Delete(st, q).value)
  {
    var st1 := Delete(st, q).value;
    CountersKeepNumbersUnique(st.cards, st1.cards);
    var i := Find(st.records, DeleteTarget(q)).value;
    var rs := st.records;
    forall a, b | 0 <= a < |st1.records| && 0 <= b < |st1.records| && st1.records[a].id == st1.records[b].id
      ensures a == b
    {
      var a' := if a < i then a else a + 1;
      var b' := if b < i then b else b + 1;
      assert st1.records[a] == rs[a'];
      assert st1.records[b] == rs[b'];
    }
  }

  lemma EditKeepsValid(st: Store, rv: Revision)
    requires ValidStore(st) && Amend(st, rv).Ok?
    ensures ValidStore(Amend(st, rv).value)
  {
    var st1 := Amend(st, rv).value;
    CountersKeepNumbersUnique(st.cards, st1.cards);
    var i := Find(st.records, rv.id).value;
    forall a | 0 <= a < |st1.records| ensures st1.records[a].id == st.records[a].id {
      if a != i {
        assert st1.records[a] == st.records[a];
      }
    }
  }
}
